=== FILE: README.md ===
# helm-hog in Dafny

helm-hog tests a Helm chart against every combination of values "parts"
(YAML fragments). A project declares variables, and each variable has named
choices; a choice is a list of parts. Requirements ("if these choices, then
also these") and restrictions ("never this combination") prune the cases.
Loading checks the project's structure and settles an order of the
variables. The generator enumerates the allowed cases. The `test` command
lints or validates each case, possibly in parallel. It optionally skips
cases that share a choice with an already failed case, and it collects a
summary.

This project models the pure core of that program:

- the rules and `Case.With` (`rules.dfy`, `cases.dfy`);
- the project conjunction of rules and the checks and order resolution of
  `Load` (`projects.dfy`);
- `GenerateCases`, as a fold of one filtering stage per variable
  (`generation.dfy`);
- the naming helpers `CaseTempDirParts`, `TempPath` and `ValuesArgs`
  (`paths.dfy`);
- the worker and the collector of the `test` command, run sequentially
  against an oracle for the outside world (`runner.dfy`);
- the command end to end (`pipeline.dfy`).

`names.dfy` holds the shared names and sequence facts.

Go ranges over maps in no fixed order. Wherever the source does that, the
order is a parameter:

- `keyIter` is the order of the variables map.
- `ChoiceIteration` gives the order of each variable's choices.
- Plain sequences give the orders of rule names and of map keys.

Every contract holds for all such orders, and the lemmas show which results
do not depend on them. A missing map key reads as the empty string, as
Go's map index does (`Cases.Lookup`).

## Model

| member | source | states |
|---|---|---|
| `Cases.With` | pkg/helmhog/case.go:7-14 | The new case maps `name` to `choice`. Its variables are the old ones plus `name`, and every other variable keeps its choice. |
| `Cases.WithIdempotent` | pkg/helmhog/case.go:7-14 | Setting the same choice twice is the same as setting it once. |
| `Cases.WithLastWriteWins` | pkg/helmhog/case.go:7-14 | A second `With` on the same variable overrides the first. |
| `Cases.WithThenDrop` | pkg/helmhog/case.go:7-14 | Adding an unassigned variable and then removing it gives back the original case, which the result extends. |
| `Rules.RequirementAllowsLoop` | pkg/helmhog/rule.go:10-22 | The early-return loops answer "if every `If` pair matches then every `Then` pair matches", whatever the map order. They reject exactly when all `If` pairs match and some `Then` pair does not. |
| `Rules.RestrictionAllowsLoop` | pkg/helmhog/rule.go:26-33 | The loop allows a case exactly when some pair of the restriction mismatches, whatever the map order. |
| `Rules.AbsentIfVariableAllows` | pkg/helmhog/rule.go:11-15 | An `If` variable the case lacks reads as "" and cannot match a real choice, so the requirement allows the case. |
| `Rules.AbsentThenVariableRejects` | pkg/helmhog/rule.go:16-20 | Once `If` matches, a `Then` variable the case lacks is a mismatch, so a partial case is rejected. |
| `Rules.DegenerateRules` | pkg/helmhog/project.go:74-86 | These are the degenerate rules `Load` refuses. An empty restriction forbids every case. An empty `Then` never forbids. An empty `If` imposes its `Then` on every case. |
| `Rules.RestrictionClosedUnderExtension` | pkg/helmhog/rule.go:26-33 | A restriction that forbids a case also forbids every extension of it, when its choice names are non-empty. |
| `Rules.EmptyChoiceNameBreaksClosure` | pkg/helmhog/rule.go:26-33 | A restriction on the empty choice name forbids the empty case but allows an extension of it. |
| `Projects.AllowsLoop` | pkg/helmhog/project.go:39-51 | Walking requirements then restrictions with early exit gives the conjunction of all rules, in any rule order. |
| `Projects.CheckStructure` | pkg/helmhog/project.go:62-216 | No error means every structural condition holds. Each reported error is justified by the failed condition it names. |
| `Projects.OrderFacts` | pkg/helmhog/project.go:218-240 | The map's own key order has one slot per variable. A declared order that covers every variable lists each once exactly when it is no longer than the variable count. |
| `Projects.LoadAsWritten` | pkg/helmhog/project.go:53-251 | Loading panics exactly when the project is well formed and the declared order covers all variables but is longer than the variable count. A rejection always has a reason. On success the order lists every variable once, the reverse order equals it, and the chart defaults to ".". |
| `Projects.SettleOrder` | pkg/helmhog/project.go:218-250 | Once the structure is sound, a declared order that misses a variable is rejected with exactly the missing ones. One that covers all variables but is too long panics. Otherwise the order lists every variable once, and the reverse order is the same sequence. |
| `Projects.Load` | pkg/helmhog/project.go:53-251 | The corrected load never panics. It succeeds exactly when the project is well formed and the order, if declared, lists every variable once. Rejections are justified, and successes keep the loaded fields as above. |
| `Projects.LoadPanicsOnRepeatedName` | pkg/helmhog/project.go:228-240 | A well-formed project with order `["a","a"]` and one variable panics as written. The corrected `Load` rejects it. |
| `Generation.Extend` | pkg/helmhog/project.go:270-277 | One incoming case gives at most one result per choice, and exactly one when there are no rules. Each result is the case with one choice added and is allowed, and every allowed extension is emitted. |
| `Generation.Stage` | pkg/helmhog/project.go:269-280 | A stage emits at most the incoming count times the choice count, and exactly that many without rules. Every output extends some input by an allowed choice, and every allowed extension of an input is emitted. |
| `Generation.Generate` | pkg/helmhog/project.go:264-286 | With no stages the seed case alone comes out. Otherwise every output assigns the first variable of the order one of its choices and is allowed by the project. |
| `Generation.GenerateCases` | pkg/helmhog/project.go:264-286 | Each generated case assigns exactly the variables of the reverse order, each from its choices, and is allowed when that order is non-empty. There are at most as many cases as the product of the choice counts. |
| `Generation.GenerateSound` | pkg/helmhog/project.go:264-286 | Every generated case assigns exactly the variables of the order, each from its choices, and is allowed whenever the order is non-empty. |
| `Generation.ExtendDistinct` | pkg/helmhog/project.go:271-276 | Distinct choices give distinct extensions of one case. |
| `Generation.StageDistinct` | pkg/helmhog/project.go:269-280 | Distinct incoming cases that lack the stage's variable give distinct outputs. |
| `Generation.GenerateDistinct` | pkg/helmhog/project.go:264-286 | With each variable once in the order and distinct choices, no case is generated twice. |
| `Generation.GenerateCount` | pkg/helmhog/project.go:264-286 | At most the product of the choice counts is generated, and exactly that many without rules. |
| `Generation.ProductIsChoiceCounts` | pkg/helmhog/project.go:266-271 | The stages' choice counts are the declared variables' choice counts. |
| `Generation.AllowsSubcaseWithoutRequirements` | pkg/helmhog/project.go:39-51 | Without requirements, and when no restriction names the empty choice, dropping variables from an allowed case keeps it allowed. |
| `Generation.GenerateCompleteWithoutRequirements` | pkg/helmhog/project.go:264-286 | Without requirements, and when no restriction names the empty choice, every allowed full assignment is generated. |
| `Generation.GenerateExactWithoutRequirements` | pkg/helmhog/project.go:264-286 | Without requirements and for a non-empty order, the generated cases are exactly the allowed full assignments. |
| `Generation.RequirementPrunesPartialCase` | pkg/helmhog/project.go:270-275 | Because requirements are checked on partial cases, an allowed full case is never generated for one variable order but is generated for the other. |
| `Generation.EmptyChoiceNameLosesCase` | pkg/helmhog/project.go:270-275 | In one project without requirements, with restriction `{a: ""}` and order `[a, b]`, the generator emits nothing although `{a: x, b: y}` is allowed: `b` is assigned first, and the partial case `{b: y}` reads `a` as empty. |
| `Generation.LoadedGeneration` | pkg/helmhog/project.go:238-286 | A loaded project's cases are distinct and allowed. Each assigns every declared variable a declared choice. There are at most as many as the product of the choice counts, and exactly that many without rules. |
| `Paths.CaseTempDirParts` | pkg/helmhog/project.go:318-324 | The report directory is the temp dir, then "reports", then one `name, choice` pair per variable of the order. An unassigned variable gives "". |
| `Paths.TempPath` | pkg/helmhog/project.go:330-334 | A report file is the case's report directory followed by the base name. |
| `Paths.ReadOrderPairs` | pkg/helmhog/project.go:320-322 | Reading the `name, choice` levels back gives what the case reads on the order's variables. |
| `Paths.ReportDirRoundTrip` | pkg/helmhog/project.go:318-324 | For a case over exactly the order's variables, the report directory decodes back to the case. |
| `Paths.CaseTempDirPartsInjective` | pkg/helmhog/project.go:318-324 | Two cases have the same report-directory segment list exactly when they read the same on every variable of the order. |
| `Paths.TempPathInjective` | pkg/helmhog/project.go:330-334 | Two report files have the same segment list exactly when their base names agree and the cases read the same on the order. |
| `Paths.SeparatorInChoiceCollides` | pkg/helmhog/project.go:326-334 | Once joined with "/", different segment lists can name one path: with order `[a, b]`, `{a: x/b, b: y}` and `{a: x, b: b/y}` share a report directory and an `err` file. |
| `Paths.PathsAlongMembers` | pkg/helmhog/project.go:290-294 | Every values path is the mapped path of a part of a chosen choice, and every such part contributes its path. |
| `Paths.ValuesArgs` | pkg/helmhog/project.go:288-296 | The arguments are `--values path` for each path of each part of each chosen choice, variable by variable in the order the case is ranged over. |
| `Paths.ValuesArgsArePaths` | pkg/helmhog/project.go:288-296 | Variable by variable, the arguments are `--values path` for each path the chosen choices contribute, in order. |
| `Paths.ValuesArgsOrderIndependent` | pkg/helmhog/project.go:288-296 | The values arguments are the same multiset whatever order the case is ranged over in. |
| `Runner.SharesFailedChoiceLoop` | cmd/test.go:82-88 | The early-return loop finds a recorded failed pair exactly when the case has one, in any key order. A variable with no entry holds nothing. |
| `Runner.Work` | cmd/test.go:81-114 | A case is skipped exactly when pruning is on and it shares a failed choice. A skipped case carries no error. Otherwise it errs exactly when its directory or its validation fails. A directory failure gives the directory error and skips validation. A validation failure gives the validation error of the run's mode, wrapped as unrecorded when the `err` file cannot be written. |
| `Runner.Start` | cmd/test.go:57-63 | Nothing has failed or been skipped yet, and every declared variable has an empty set of failed choices. |
| `Runner.Record` | cmd/test.go:130-151 | A failed result is appended to the failed list and adds its choices to the index. A skipped result is appended to the skipped list, and any other result counts as completed. The index keeps its variables and gains exactly the failed result's own choices; a passed or skipped result leaves it unchanged. The completed count grows by one exactly for a result that was not skipped. |
| `Runner.IndexAppend` | cmd/test.go:131-135 | Recording a failed case adds exactly its choices to the failed-choice index. |
| `Runner.FailedCasesFrom` | cmd/test.go:131-133 | Every case in the failed list is the case of a failed result. |
| `Runner.NothingFailedOrSkipped` | cmd/test.go:140-153 | With both lists empty, every result was validated and passed. |
| `Runner.Run` | cmd/test.go:129-156 | Each result is the worker's answer given exactly the failures recorded before it. The skipped count plus the completed count is the case count, and failures are at most the completions. Nothing is skipped without pruning. "All cases passed" holds exactly when no case fails. |
| `Runner.PruneJustified` | cmd/test.go:82-88 | A skipped case shares a choice with a case that failed earlier. |
| `Pipeline.RunCases` | cmd/test.go:53-156 | For cases shaped like the generator's, the run keeps the counts. "All passed" holds exactly when no case fails, and each failed case is allowed and assigns every variable. |
| `Pipeline.Test` | cmd/test.go:37-156 | The run happens exactly when loading succeeds. A load failure carries the load's own justified error. A run uses the loaded project `Load` returned and its generated cases, which are distinct, allowed, assign every declared variable a declared choice, and number at most the product of the choice counts (exactly that without rules). The run then keeps the counts and the all-passed equivalence of `Pipeline.RunCases`. |

## Left out

- Goroutines, channels and the worker pool are left out. The run is a sequential loop in which each result is recorded before the next case is taken. In the source, pruning reads the failed-choice index while the collector writes it. That is a data race, and which cases get pruned depends on timing. The model shows the outcome of one interleaving.
- The generator's stages also run concurrently. The model fixes the choice order per stage, the same for every incoming case, whereas Go may range over a choice map in a different order each time.
- File-system work is left out: the temporary directory, writing inline parts, scanning parts directories (and the duplicate part names found there), `MakeCaseTempDir`, removing reports and writing the `err` file. The temp dir and the parts mapping are parameters of `Load`. Success or failure of a directory creation or a write is part of the `Environment` oracle.
- `Lint`, `ApplyDryRun` and `Validate` build `helm` and `kubectl` command lines and run them. These are external processes, so they are replaced by the oracle's per-mode validation outcome. `ValidateWithApply` and the one-argument `TempPath` used in cmd/test.go are not part of this model.
- YAML decoding, the apiVersion and kind checks, the cobra command setup, the confirmation prompt, cmd/root.go and cmd/list.go are left out.
- Joining path segments with `filepath.Join` is a library call. Paths are kept as segment lists, and `Paths.Join` models the join only for segments that cleaning leaves alone.
- Printing the reports and the progress counters is left out. Only the counters are kept.
- `Projects.CheckStructure`: several failures of one kind are reported once. Which rule, variable or choice the message names depends on map order and is not kept. An undefined variable and an undefined choice are one error kind per rule part. Go checks each requirement's `If` and then its `Then` before moving to the next requirement, so when one requirement fails in its `If` and another in its `Then`, which error is reported depends on map order; the model reports the `If` error. This holds for empty parts and for undefined names alike.
- `Generation.GenerateExactWithoutRequirements`: the converse (every allowed full assignment is generated) is proved only without requirements. Requirements are checked on partial cases, which can lose allowed full cases (`Generation.RequirementPrunesPartialCase`). The precondition also asks restriction choice names to be non-empty. Without that, a rule-level closure fails (`Rules.EmptyChoiceNameBreaksClosure`), and the generator itself loses allowed cases (`Generation.EmptyChoiceNameLosesCase`).
- `Paths.TempPathInjective`: the injectivity holds for segment lists, not for the joined strings the program uses. A "/" inside a choice name moves a level boundary (`Paths.SeparatorInChoiceCollides`). `filepath.Join` also cleans segments, so `{a: ""}` and `{a: "."}` give one path as well. Two such cases share a report directory and overwrite each other's `err` file.
- `Paths.CaseTempDirPartsInjective`: the same limit applies to report directories.
- `Generation.GenerateSound`: with an empty order, the seed case is emitted without a rules check, so "allowed" is stated only for non-empty orders. `Load` never yields an empty order.
- `Pipeline.Test`: it loads with the corrected `Projects.Load`, so it has no panic outcome.
- The `LoadedProject` holds the `Project` by reference, so each Go field access reaches the project through it. In the model, `LoadedProject.project` holds the project as a value.

A declared `variableOrder` that names every variable but is longer than the variable list (a repeated or unknown name) makes `Load` write past the end of `ReverseVariableOrder` (project.go:238-240) and panic. An order that misses a variable is rejected first (project.go:232-236). The model follows the code (see Findings).

## Findings

| source | as written | input that shows it | evidently intended | confidence | as-written member | corrected member |
|---|---|---|---|---|---|---|
| pkg/helmhog/project.go:238-240 | `ReverseVariableOrder` is sized by the number of variables but filled from `VariableOrder`, whose length is that of the declared order | one variable `a` with order `["a", "a"]`: index 1 of a length-1 slice, a runtime panic (`Projects.LoadPanicsOnRepeatedName`) | reject an order that names a variable twice or names an unknown one, as an error from `Load` | not executed | `Projects.LoadAsWritten` | `Projects.Load` |

=== FILE: cases.dfy ===
/** A case assigns one choice to each of some variables (pkg/helmhog/case.go).
    Cases are immutable maps here, so extending one never disturbs the
    original, which the source obtains by copying into a fresh map. */
module Cases {
  import opened Names

  type Case = MappingSet

  /** Go's `c[k]`: a variable absent from the case reads as the zero string. */
  function Lookup(c: Case, k: VariableName): ChoiceName {
    if k in c then c[k] else ""
  }

  /** `Case.With`: the case with `name` set to `choice` and every other
      entry as it was. */
  function With(c: Case, name: VariableName, choice: ChoiceName): (r: Case)
    ensures name in r && r[name] == choice
    ensures r.Keys == c.Keys + {name}
    ensures forall j | j != name :: (j in r <==> j in c)
    ensures forall j | j in c && j != name :: r[j] == c[j]
  {
    c[name := choice]
  }

  /** `big` agrees with every entry of `small` (and may assign more). */
  predicate Extends(big: Case, small: Case) {
    forall k | k in small :: k in big && big[k] == small[k]
  }

  /** Setting the same entry twice is setting it once. */
  lemma WithIdempotent(c: Case, name: VariableName, choice: ChoiceName)
    ensures With(With(c, name, choice), name, choice) == With(c, name, choice)
  {
  }

  /** The last write to an entry wins. */
  lemma WithLastWriteWins(c: Case, name: VariableName, first: ChoiceName, second: ChoiceName)
    ensures With(With(c, name, first), name, second) == With(c, name, second)
  {
  }

  /** Extending a case by a variable it does not yet assign can be undone by
      dropping that variable again, so the extension determines the case it
      came from. */
  lemma WithThenDrop(c: Case, name: VariableName, choice: ChoiceName)
    requires name !in c
    ensures With(c, name, choice) - {name} == c
    ensures Extends(With(c, name, choice), c)
  {
  }
}

=== FILE: generation.dfy ===
/** Case generation (`LoadedProject.GenerateCases`, pkg/helmhog/project.go).
    The source chains one goroutine stage per variable with channels; here
    the chain is a fold over the order. The stage built first, for the first
    name of the order, is the one that feeds the output, and the single empty
    seed case enters the stage built last, so variables are assigned from the
    last name of the order to the first. Every stage extends each incoming
    case by each choice of its variable and drops the extensions the project
    does not allow. */
module Generation {
  import opened Names
  import opened Cases
  import opened Rules
  import opened Projects

  /** For each variable, the order in which ranging over its choice map
      yields the choices. */
  type ChoiceIteration = map<VariableName, seq<ChoiceName>>

  predicate IteratesChoices(vars: map<VariableName, Variable>, it: ChoiceIteration) {
    it.Keys == vars.Keys && forall n | n in it :: Enumerates(it[n], vars[n].Keys)
  }

  /** The choices the stage for `name` tries; a name that is not a variable
      has none, as ranging over Go's nil map yields nothing. */
  function ChoicesOf(it: ChoiceIteration, name: VariableName): seq<ChoiceName> {
    if name in it then it[name] else []
  }

  /** The inner loop of a stage: one incoming case extended by each choice
      in turn, keeping the allowed extensions. */
  function Extend(p: Project, name: VariableName, choices: seq<ChoiceName>, c: Case): (r: seq<Case>)
    ensures |r| <= |choices|
    ensures NoRules(p) ==> |r| == |choices|
    ensures forall x | x in r :: name in x && x[name] in choices && Allows(p, x) && x == With(c, name, x[name])
    ensures forall ch | ch in choices && Allows(p, With(c, name, ch)) :: With(c, name, ch) in r
  {
    if choices == [] then []
    else
      var x := With(c, name, choices[0]);
      (if Allows(p, x) then [x] else []) + Extend(p, name, choices[1..], c)
  }

  /** One stage: every incoming case, in arrival order, extended by every
      choice of the stage's variable. */
  function Stage(p: Project, name: VariableName, choices: seq<ChoiceName>, xs: seq<Case>): (r: seq<Case>)
    ensures |r| <= |xs| * |choices|
    ensures NoRules(p) ==> |r| == |xs| * |choices|
    ensures forall x | x in r ::
              name in x && x[name] in choices && Allows(p, x) && exists c | c in xs :: x == With(c, name, x[name])
    ensures forall c, ch | c in xs && ch in choices && Allows(p, With(c, name, ch)) :: With(c, name, ch) in r
  {
    if xs == [] then []
    else
      assert |xs| * |choices| == |choices| + (|xs| - 1) * |choices|;
      Extend(p, name, choices, xs[0]) + Stage(p, name, choices, xs[1..])
  }

  /** The whole chain: the stages for `order`, applied from its last name to
      its first to the seed case. With an empty order the seed itself is
      the output, unchecked. */
  function Generate(p: Project, order: seq<VariableName>, it: ChoiceIteration): (r: seq<Case>)
    ensures order == [] ==> r == [map[]]
    ensures order != [] ==> forall x | x in r ::
              order[0] in x && x[order[0]] in ChoicesOf(it, order[0]) && Allows(p, x)
    decreases |order|
  {
    if order == [] then [map[]]
    else Stage(p, order[0], ChoicesOf(it, order[0]), Generate(p, order[1..], it))
  }

  /** `GenerateCases`: the chain is built over the reverse order, which
      loading leaves equal to the order. */
  function GenerateCases(l: LoadedProject, it: ChoiceIteration): (r: seq<Case>)
    ensures forall x | x in r :: FullAssignment(x, l.reverseVariableOrder, it)
    ensures |l.reverseVariableOrder| > 0 ==> forall x | x in r :: Allows(l.project, x)
    ensures |r| <= Product(l.reverseVariableOrder, it)
  {
    GenerateSound(l.project, l.reverseVariableOrder, it);
    GenerateCount(l.project, l.reverseVariableOrder, it);
    Generate(l.project, l.reverseVariableOrder, it)
  }

  /** `x` assigns exactly the variables of `order`, each one of the choices
      its stage tries. */
  predicate FullAssignment(x: Case, order: seq<VariableName>, it: ChoiceIteration) {
    x.Keys == ToSet(order) && forall n | n in order :: n in x && x[n] in ChoicesOf(it, n)
  }

  /** The product of the choice counts along `order`. */
  function Product(order: seq<VariableName>, it: ChoiceIteration): nat {
    if order == [] then 1 else |ChoicesOf(it, order[0])| * Product(order[1..], it)
  }

  /** Soundness: every emitted case assigns exactly the variables of the
      order, each to one of its choices, and (once there is at least one
      stage) is allowed by the project. */
  lemma {:induction false} GenerateSound(p: Project, order: seq<VariableName>, it: ChoiceIteration)
    ensures forall x | x in Generate(p, order, it) :: FullAssignment(x, order, it)
    ensures |order| > 0 ==> forall x | x in Generate(p, order, it) :: Allows(p, x)
    decreases |order|
  {
    if order == [] {
      assert ToSet(order) == {};
    } else {
      var name, rest := order[0], order[1..];
      var choices := ChoicesOf(it, name);
      var xs := Generate(p, rest, it);
      GenerateSound(p, rest, it);
      forall x | x in Generate(p, order, it)
        ensures FullAssignment(x, order, it)
      {
        var c :| c in xs && x == With(c, name, x[name]);
        WithFull(c, order, it, x[name]);
      }
    }
  }

  /** Adding the first variable of the order to a full assignment of the
      rest gives a full assignment of the order. */
  lemma WithFull(c: Case, order: seq<VariableName>, it: ChoiceIteration, choice: ChoiceName)
    requires order != []
    requires FullAssignment(c, order[1..], it)
    requires choice in ChoicesOf(it, order[0])
    ensures FullAssignment(With(c, order[0], choice), order, it)
  {
    var x := With(c, order[0], choice);
    ToSetCons(order);
    forall n | n in order
      ensures n in x && x[n] in ChoicesOf(it, n)
    {
      if n != order[0] {
        assert n in order[1..];
      }
    }
  }

  lemma {:induction false} ExtendDistinct(p: Project, name: VariableName, choices: seq<ChoiceName>, c: Case)
    requires NoDup(choices)
    ensures NoDup(Extend(p, name, choices, c))
    decreases |choices|
  {
    if choices != [] {
      var x := With(c, name, choices[0]);
      var head: seq<Case> := if Allows(p, x) then [x] else [];
      var tail := Extend(p, name, choices[1..], c);
      assert NoDup(choices[1..]) by {
        forall i, j | 0 <= i < j < |choices[1..]|
          ensures choices[1..][i] != choices[1..][j]
        {
          assert choices[1..][i] == choices[i + 1] && choices[1..][j] == choices[j + 1];
        }
      }
      ExtendDistinct(p, name, choices[1..], c);
      assert forall y | y in head :: y !in tail;
      NoDupConcat(head, tail);
    }
  }

  /** A stage fed distinct cases that all leave its variable unassigned
      emits distinct cases: an emitted case determines both the incoming
      case (drop the variable again) and the choice. */
  lemma {:induction false} StageDistinct(p: Project, name: VariableName, choices: seq<ChoiceName>, xs: seq<Case>)
    requires NoDup(xs) && NoDup(choices)
    requires forall c | c in xs :: name !in c
    ensures NoDup(Stage(p, name, choices, xs))
    decreases |xs|
  {
    if xs != [] {
      var head := Extend(p, name, choices, xs[0]);
      var tail := Stage(p, name, choices, xs[1..]);
      ExtendDistinct(p, name, choices, xs[0]);
      assert NoDup(xs[1..]) by {
        forall i, j | 0 <= i < j < |xs[1..]|
          ensures xs[1..][i] != xs[1..][j]
        {
          assert xs[1..][i] == xs[i + 1] && xs[1..][j] == xs[j + 1];
        }
      }
      StageDistinct(p, name, choices, xs[1..]);
      forall z: Case | z in tail
        ensures z - {name} in xs[1..]
      {
        var c :| c in xs[1..] && z == With(c, name, z[name]);
        WithThenDrop(c, name, z[name]);
      }
      assert forall j | 0 <= j < |xs[1..]| :: xs[1..][j] == xs[j + 1] && xs[j + 1] != xs[0];
      forall y | y in head
        ensures y !in tail
      {
        WithThenDrop(xs[0], name, y[name]);
      }
      NoDupConcat(head, tail);
    }
  }

  /** When the order names each variable once and every variable's choices
      are listed once, the emitted cases are pairwise distinct. */
  lemma {:induction false} GenerateDistinct(p: Project, order: seq<VariableName>, it: ChoiceIteration)
    requires NoDup(order)
    requires forall n | n in order :: NoDup(ChoicesOf(it, n))
    ensures NoDup(Generate(p, order, it))
    decreases |order|
  {
    if order != [] {
      var name, rest := order[0], order[1..];
      assert NoDup(rest) by {
        forall i, j | 0 <= i < j < |rest|
          ensures rest[i] != rest[j]
        {
          assert rest[i] == order[i + 1] && rest[j] == order[j + 1];
        }
      }
      GenerateDistinct(p, rest, it);
      GenerateSound(p, rest, it);
      assert name !in ToSet(rest);
      forall c | c in Generate(p, rest, it)
        ensures name !in c
      {
        assert FullAssignment(c, rest, it);
      }
      StageDistinct(p, name, ChoicesOf(it, name), Generate(p, rest, it));
    }
  }

  lemma MulMonotone(a: nat, b: nat, k: nat)
    requires a <= b
    ensures a * k <= b * k
  {
  }

  /** At most the product of the choice counts is emitted, and exactly that
      many when the project has no rules. */
  lemma {:induction false} GenerateCount(p: Project, order: seq<VariableName>, it: ChoiceIteration)
    ensures |Generate(p, order, it)| <= Product(order, it)
    ensures NoRules(p) ==> |Generate(p, order, it)| == Product(order, it)
    decreases |order|
  {
    if order != [] {
      var k := |ChoicesOf(it, order[0])|;
      var xs := Generate(p, order[1..], it);
      GenerateCount(p, order[1..], it);
      MulMonotone(|xs|, Product(order[1..], it), k);
      assert Product(order, it) == Product(order[1..], it) * k;
    }
  }

  /** With the iteration listing each variable's declared choices once, the
      product along the order is the product of the declared choice counts. */
  function ChoiceCountProduct(vars: map<VariableName, Variable>, order: seq<VariableName>): nat {
    if order == [] then 1
    else (if order[0] in vars then |vars[order[0]]| else 0) * ChoiceCountProduct(vars, order[1..])
  }

  lemma {:induction false} ProductIsChoiceCounts(vars: map<VariableName, Variable>, order: seq<VariableName>,
                                                 it: ChoiceIteration)
    requires IteratesChoices(vars, it)
    ensures Product(order, it) == ChoiceCountProduct(vars, order)
    decreases |order|
  {
    if order != [] {
      if order[0] in vars {
        EnumerationLength(it[order[0]], vars[order[0]].Keys);
      }
      ProductIsChoiceCounts(vars, order[1..], it);
    }
  }

  predicate RestrictionChoicesNonEmpty(p: Project) {
    forall n, k | n in p.restrictions && k in p.restrictions[n] :: p.restrictions[n][k] != ""
  }

  /** Without requirements, a case the project allows keeps being allowed
      when variables are dropped from it, as long as no restriction names
      the empty choice. */
  lemma AllowsSubcaseWithoutRequirements(p: Project, small: Case, big: Case)
    requires p.requirements == map[]
    requires RestrictionChoicesNonEmpty(p)
    requires Extends(big, small)
    requires Allows(p, big)
    ensures Allows(p, small)
  {
    forall n | n in p.restrictions
      ensures RestrictionAllows(p.restrictions[n], small)
    {
      if !RestrictionAllows(p.restrictions[n], small) {
        RestrictionClosedUnderExtension(p.restrictions[n], small, big);
      }
    }
  }

  /** A full assignment along `order` is the full assignment along the rest
      of the order, extended by the first name. */
  lemma DropFirst(x: Case, order: seq<VariableName>, it: ChoiceIteration) returns (small: Case)
    requires |order| > 0
    requires FullAssignment(x, order, it)
    ensures FullAssignment(small, order[1..], it)
    ensures Extends(x, small)
    ensures x == With(small, order[0], x[order[0]]) && x[order[0]] in ChoicesOf(it, order[0])
  {
    var name, rest := order[0], order[1..];
    ToSetCons(order);
    small := map n | n in ToSet(rest) :: x[n];
    forall n | n in rest
      ensures n in small && small[n] in ChoicesOf(it, n)
    {
      assert n in order;
    }
    WithRestores(x, small, name);
  }

  /** Putting back the one variable a sub-case lacks restores the case. */
  lemma WithRestores(x: Case, small: Case, name: VariableName)
    requires name in x && x.Keys == small.Keys + {name}
    requires forall n | n in small :: small[n] == x[n]
    ensures With(small, name, x[name]) == x
  {
  }

  /** Completeness without requirements: every full assignment the project
      allows is emitted. */
  lemma {:induction false} GenerateCompleteWithoutRequirements(p: Project, order: seq<VariableName>,
                                                               it: ChoiceIteration, x: Case)
    requires p.requirements == map[]
    requires RestrictionChoicesNonEmpty(p)
    requires FullAssignment(x, order, it)
    requires Allows(p, x)
    ensures x in Generate(p, order, it)
    decreases |order|
  {
    if order == [] {
      assert ToSet(order) == {};
      assert x == map[];
    } else {
      var small := DropFirst(x, order, it);
      AllowsSubcaseWithoutRequirements(p, small, x);
      GenerateCompleteWithoutRequirements(p, order[1..], it, small);
    }
  }

  /** Without requirements, the generator emits exactly the full
      assignments the project allows. */
  lemma GenerateExactWithoutRequirements(p: Project, order: seq<VariableName>, it: ChoiceIteration)
    requires p.requirements == map[]
    requires RestrictionChoicesNonEmpty(p)
    requires |order| > 0
    ensures forall x :: x in Generate(p, order, it) <==> FullAssignment(x, order, it) && Allows(p, x)
  {
    GenerateSound(p, order, it);
    forall x | FullAssignment(x, order, it) && Allows(p, x)
      ensures x in Generate(p, order, it)
    {
      GenerateCompleteWithoutRequirements(p, order, it, x);
    }
  }

  const exampleRequirement := Requirement(map["a" := "x"], map["b" := "y"])
  const exampleProject := Project("", [], {"base"}, map["a" := map["x" := []], "b" := map["y" := []]], [],
                                  map["r" := exampleRequirement], map[])
  const exampleIteration: ChoiceIteration := map["a" := ["x"], "b" := ["y"]]

  lemma ExampleAllows()
    ensures !Allows(exampleProject, map["a" := "x"])
    ensures Allows(exampleProject, map["b" := "y"])
    ensures Allows(exampleProject, map["a" := "x", "b" := "y"])
  {
    assert exampleProject.requirements["r"] == exampleRequirement;
    assert Lookup(map["a" := "x"], "b") != "y";
    assert Lookup(map["b" := "y"], "a") != "x";
    assert Matches(exampleRequirement.thenPart, map["a" := "x", "b" := "y"]);
  }

  /** A stage fed one case with one choice keeps that case's extension
      exactly when the project allows it. */
  lemma StageOne(p: Project, name: VariableName, ch: ChoiceName, c: Case)
    ensures Stage(p, name, [ch], [c]) == if Allows(p, With(c, name, ch)) then [With(c, name, ch)] else []
  {
    assert [c][1..] == [] && [ch][1..] == [];
  }

  /** The chain for a one-name order is the stage for that name fed the
      seed. */
  lemma GenerateOne(p: Project, name: VariableName, it: ChoiceIteration)
    ensures Generate(p, [name], it) == Stage(p, name, ChoicesOf(it, name), [map[]])
  {
    assert [name][1..] == [];
  }

  /** The chain for a two-name order is the first name's stage fed the
      chain for the second. */
  lemma GenerateTwo(p: Project, first: VariableName, second: VariableName, it: ChoiceIteration)
    ensures Generate(p, [first, second], it) == Stage(p, first, ChoicesOf(it, first), Generate(p, [second], it))
  {
    assert [first, second][1..] == [second];
  }

  /** Order `[b, a]`: the stage for `a` runs first and drops `{a: x}`. */
  lemma ExampleMissesFullCase()
    ensures Generate(exampleProject, ["b", "a"], exampleIteration) == []
  {
    var p, it := exampleProject, exampleIteration;
    ExampleAllows();
    assert With(map[], "a", "x") == map["a" := "x"];
    assert ChoicesOf(it, "a") == ["x"];
    GenerateOne(p, "a", it);
    StageOne(p, "a", "x", map[]);
    GenerateTwo(p, "b", "a", it);
  }

  lemma ExampleWith()
    ensures With(map[], "b", "y") == map["b" := "y"]
    ensures With(map["b" := "y"], "a", "x") == map["a" := "x", "b" := "y"]
  {
  }

  /** Order `[a, b]`: `b` is chosen first and the full case passes. */
  lemma ExampleFindsFullCase()
    ensures Generate(exampleProject, ["a", "b"], exampleIteration) == [map["a" := "x", "b" := "y"]]
  {
    var p, it := exampleProject, exampleIteration;
    var partial, full := map["b" := "y"], map["a" := "x", "b" := "y"];
    ExampleAllows();
    ExampleWith();
    assert ChoicesOf(it, "a") == ["x"] && ChoicesOf(it, "b") == ["y"];
    GenerateOne(p, "b", it);
    StageOne(p, "b", "y", map[]);
    assert Generate(p, ["b"], it) == [partial];
    GenerateTwo(p, "a", "b", it);
    StageOne(p, "a", "x", partial);
  }

  lemma ExampleFullAssignment()
    ensures FullAssignment(map["a" := "x", "b" := "y"], ["b", "a"], exampleIteration)
  {
    var full := map["a" := "x", "b" := "y"];
    assert ToSet(["b", "a"]) == {"a", "b"} == full.Keys;
    assert ChoicesOf(exampleIteration, "a") == ["x"] && ChoicesOf(exampleIteration, "b") == ["y"];
  }

  /** Requirements are checked on partial cases, so the generator can miss
      an allowed case. With `if a = x then b = y`, assigning `a` first (order
      `[b, a]`) makes the partial case `{a: x}` fail the requirement because
      `b` still reads as empty; the allowed full case is never emitted. In
      the other order it is. */
  lemma RequirementPrunesPartialCase()
    ensures FullAssignment(map["a" := "x", "b" := "y"], ["b", "a"], exampleIteration)
    ensures Allows(exampleProject, map["a" := "x", "b" := "y"])
    ensures Generate(exampleProject, ["b", "a"], exampleIteration) == []
    ensures Generate(exampleProject, ["a", "b"], exampleIteration) == [map["a" := "x", "b" := "y"]]
  {
    ExampleAllows();
    ExampleFullAssignment();
    ExampleMissesFullCase();
    ExampleFindsFullCase();
  }

  const emptyChoiceProject := Project("", [], {"base"},
                                     map["a" := map["" := [], "x" := []], "b" := map["y" := []]], ["a", "b"],
                                     map[], map["r" := map["a" := ""]])
  const emptyChoiceIteration: ChoiceIteration := map["a" := ["", "x"], "b" := ["y"]]

  lemma EmptyChoiceAllows()
    ensures !Allows(emptyChoiceProject, map["b" := "y"])
    ensures Allows(emptyChoiceProject, map["a" := "x", "b" := "y"])
  {
    var r := emptyChoiceProject.restrictions["r"];
    assert r == map["a" := ""];
    assert Lookup(map["b" := "y"], "a") == r["a"];
    assert Lookup(map["a" := "x", "b" := "y"], "a") != r["a"];
    assert !Matches(r, map["a" := "x", "b" := "y"]);
  }

  lemma EmptyChoiceMissesFullCase()
    ensures Generate(emptyChoiceProject, ["a", "b"], emptyChoiceIteration) == []
  {
    var p, it := emptyChoiceProject, emptyChoiceIteration;
    EmptyChoiceAllows();
    assert ChoicesOf(it, "b") == ["y"];
    assert With(map[], "b", "y") == map["b" := "y"];
    GenerateOne(p, "b", it);
    StageOne(p, "b", "y", map[]);
    assert Generate(p, ["b"], it) == [];
    GenerateTwo(p, "a", "b", it);
  }

  lemma EmptyChoiceFullAssignment()
    ensures FullAssignment(map["a" := "x", "b" := "y"], ["a", "b"], emptyChoiceIteration)
  {
    assert ToSet(["a", "b"]) == {"a", "b"};
    assert ChoicesOf(emptyChoiceIteration, "a") == ["", "x"] && ChoicesOf(emptyChoiceIteration, "b") == ["y"];
  }

  /** The generator loses allowed cases when a restriction names the empty
      choice, even without requirements. With restriction `a = ""` and
      order `[a, b]`, the stage for `b` runs first: the partial case
      `{b: y}` reads `a` as empty, matches the restriction and is dropped.
      Nothing is emitted, although `{a: x, b: y}` is allowed. */
  lemma EmptyChoiceNameLosesCase()
    ensures emptyChoiceProject.requirements == map[] && !RestrictionChoicesNonEmpty(emptyChoiceProject)
    ensures FullAssignment(map["a" := "x", "b" := "y"], ["a", "b"], emptyChoiceIteration)
    ensures Allows(emptyChoiceProject, map["a" := "x", "b" := "y"])
    ensures Generate(emptyChoiceProject, ["a", "b"], emptyChoiceIteration) == []
  {
    assert emptyChoiceProject.restrictions["r"]["a"] == "";
    EmptyChoiceAllows();
    EmptyChoiceFullAssignment();
    EmptyChoiceMissesFullCase();
  }

  /** A loaded project generates distinct cases, at most the product of the
      declared choice counts of them (exactly that many without rules), each
      allowed and assigning every declared variable one of its choices. */
  lemma LoadedGeneration(p: Project, keyIter: seq<VariableName>, tempDir: string,
                         partsMapping: map<PartName, PartPath>, it: ChoiceIteration)
    requires Enumerates(keyIter, p.variables.Keys)
    requires Load(p, keyIter, tempDir, partsMapping).Loaded?
    requires IteratesChoices(p.variables, it)
    ensures var l := Load(p, keyIter, tempDir, partsMapping).loaded;
            var cases := GenerateCases(l, it);
            && NoDup(cases)
            && |cases| <= ChoiceCountProduct(p.variables, l.variableOrder)
            && (NoRules(p) ==> |cases| == ChoiceCountProduct(p.variables, l.variableOrder))
            && forall x | x in cases ::
                 Allows(p, x) && x.Keys == p.variables.Keys && forall n | n in x :: x[n] in p.variables[n]
  {
    var l := Load(p, keyIter, tempDir, partsMapping).loaded;
    GeneratedFrom(p, l, keyIter, tempDir, partsMapping, it);
  }

  lemma GeneratedFrom(p: Project, l: LoadedProject, keyIter: seq<VariableName>, tempDir: string,
                      partsMapping: map<PartName, PartPath>, it: ChoiceIteration)
    requires LoadedFrom(l, p, keyIter, tempDir, partsMapping)
    requires IteratesChoices(p.variables, it)
    ensures var cases := GenerateCases(l, it);
            && NoDup(cases)
            && |cases| <= ChoiceCountProduct(p.variables, l.variableOrder)
            && (NoRules(p) ==> |cases| == ChoiceCountProduct(p.variables, l.variableOrder))
            && forall x | x in cases ::
                 Allows(p, x) && x.Keys == p.variables.Keys && forall n | n in x :: x[n] in p.variables[n]
  {
    var order := l.variableOrder;
    EnumerationLength(order, p.variables.Keys);
    forall n | n in order
      ensures NoDup(ChoicesOf(it, n))
    {
      assert n in ToSet(order);
    }
    GenerateSound(p, order, it);
    GenerateDistinct(p, order, it);
    GenerateCount(p, order, it);
    ProductIsChoiceCounts(p.variables, order, it);
    forall x | x in GenerateCases(l, it)
      ensures forall n | n in x :: x[n] in p.variables[n]
    {
      assert FullAssignment(x, order, it);
      forall n | n in x
        ensures x[n] in p.variables[n]
      {
        assert n in ToSet(order);
      }
    }
  }
}

=== FILE: names.dfy ===
/** Identifiers and collection types of the project model, after
    pkg/helmhog/variable.go, together with the few sequence facts the rest of
    the model needs about Go's map iteration orders. */
module Names {

  type PartName = string
  type VariableName = string
  type ChoiceName = string
  type RuleName = string
  type PartPath = string

  /** A variable maps each of its choices to the ordered overlay parts that
      choice contributes. */
  type Variable = map<ChoiceName, seq<PartName>>

  /** A partial assignment of choices to variables (Go's `MappingSet`). */
  type MappingSet = map<VariableName, ChoiceName>

  datatype Option<T> = None | Some(value: T)

  /** No element occurs twice. */
  predicate NoDup<T(==)>(s: seq<T>) {
    forall i, j | 0 <= i < j < |s| :: s[i] != s[j]
  }

  function ToSet<T>(s: seq<T>): set<T> {
    set x | x in s
  }

  /** `s` lists every element of `keys` exactly once: one possible order in
      which Go ranges over a map whose key set is `keys`. */
  predicate Enumerates<T(==)>(s: seq<T>, keys: set<T>) {
    NoDup(s) && ToSet(s) == keys
  }

  lemma ToSetCons<T>(s: seq<T>)
    requires |s| > 0
    ensures ToSet(s) == {s[0]} + ToSet(s[1..])
  {
    assert s == [s[0]] + s[1..];
  }

  /** A non-empty sequence is duplicate-free exactly when its head does not
      recur and its tail is duplicate-free. */
  lemma NoDupCons<T>(s: seq<T>)
    requires |s| > 0
    ensures NoDup(s) <==> s[0] !in s[1..] && NoDup(s[1..])
  {
    var t := s[1..];
    if s[0] in t {
      var j :| 0 <= j < |t| && t[j] == s[0];
      assert s[0] == s[j + 1];
    }
    if !NoDup(t) {
      var i, j :| 0 <= i < j < |t| && t[i] == t[j];
      assert s[i + 1] == s[j + 1];
    }
    if s[0] !in t && NoDup(t) {
      forall i, j | 0 <= i < j < |s|
        ensures s[i] != s[j]
      {
        assert s[j] == t[j - 1];
        if i > 0 {
          assert s[i] == t[i - 1];
        }
      }
    }
  }

  /** A sequence has at most as many distinct elements as it is long, and
      exactly as many when it has no duplicates. */
  lemma {:induction false} CardToSet<T>(s: seq<T>)
    ensures |ToSet(s)| <= |s|
    ensures |ToSet(s)| == |s| <==> NoDup(s)
  {
    if |s| > 0 {
      var t := s[1..];
      CardToSet(t);
      NoDupCons(s);
      ToSetCons(s);
      assert s[0] in t <==> s[0] in ToSet(t);
    }
  }

  /** A subset with the same number of elements is the whole set. */
  lemma SubsetSameCard<T>(a: set<T>, b: set<T>)
    requires a <= b && |a| == |b|
    ensures a == b
  {
    assert b == a + (b - a);
    assert |b| == |a| + |b - a|;
  }

  /** Pigeonhole: a sequence that mentions every key but is no longer than
      the key set lists each key exactly once and nothing else. */
  lemma {:induction false} CoveringAndShortEnumerates<T>(s: seq<T>, keys: set<T>)
    requires keys <= ToSet(s)
    requires |s| <= |keys|
    ensures Enumerates(s, keys)
  {
    CardToSet(s);
    assert |keys| <= |ToSet(s)| by {
      assert ToSet(s) == keys + (ToSet(s) - keys);
    }
    SubsetSameCard(keys, ToSet(s));
  }

  /** An enumeration of a key set is exactly as long as the set is large. */
  lemma EnumerationLength<T>(s: seq<T>, keys: set<T>)
    requires Enumerates(s, keys)
    ensures |s| == |keys|
  {
    CardToSet(s);
  }

  /** Joining two duplicate-free sequences that share no element keeps them
      duplicate-free. */
  lemma NoDupConcat<T>(a: seq<T>, b: seq<T>)
    requires NoDup(a) && NoDup(b)
    requires forall x | x in a :: x !in b
    ensures NoDup(a + b)
  {
    var s := a + b;
    forall i, j | 0 <= i < j < |s|
      ensures s[i] != s[j]
    {
      if j < |a| {
        assert s[i] == a[i] && s[j] == a[j];
      } else if i >= |a| {
        assert s[i] == b[i - |a|] && s[j] == b[j - |a|];
      } else {
        assert s[i] == a[i] && s[j] == b[j - |a|];
        assert s[j] in b;
      }
    }
  }

  /** Removing one element of a duplicate-free sequence leaves a
      duplicate-free sequence of the other elements. */
  lemma RemoveAt<T>(s: seq<T>, i: nat)
    requires NoDup(s) && i < |s|
    ensures NoDup(s[..i] + s[i + 1..])
    ensures ToSet(s[..i] + s[i + 1..]) == ToSet(s) - {s[i]}
  {
    var rest := s[..i] + s[i + 1..];
    forall a, b | 0 <= a < b < |rest|
      ensures rest[a] != rest[b]
    {
      var a' := if a < i then a else a + 1;
      var b' := if b < i then b else b + 1;
      assert rest[a] == s[a'] && rest[b] == s[b'];
    }
    forall y | y in ToSet(s) - {s[i]}
      ensures y in ToSet(rest)
    {
      var j :| 0 <= j < |s| && s[j] == y;
      if j < i {
        assert rest[j] == y;
      } else {
        assert rest[j - 1] == y;
      }
    }
    forall j | 0 <= j < |rest|
      ensures rest[j] in ToSet(s) - {s[i]}
    {
      var j' := if j < i then j else j + 1;
      assert rest[j] == s[j'];
    }
  }

  /** The concatenation of `f` over `s`, in order. */
  function FlatMap<T, U>(f: T -> seq<U>, s: seq<T>): seq<U> {
    if s == [] then [] else f(s[0]) + FlatMap(f, s[1..])
  }

  lemma {:induction false} FlatMapConcat<T, U>(f: T -> seq<U>, a: seq<T>, b: seq<T>)
    ensures FlatMap(f, a + b) == FlatMap(f, a) + FlatMap(f, b)
    decreases |a|
  {
    if a == [] {
      assert a + b == b;
    } else {
      assert (a + b)[1..] == a[1..] + b;
      FlatMapConcat(f, a[1..], b);
    }
  }

  /** The images of a prefix and of the matching suffix make up the image
      of the whole. */
  lemma {:induction false} FlatMapSplit<T, U>(f: T -> seq<U>, s: seq<T>, i: nat)
    requires i <= |s|
    ensures FlatMap(f, s) == FlatMap(f, s[..i]) + FlatMap(f, s[i..])
    decreases i
  {
    if i == 0 {
      assert s[..0] == [] && s[0..] == s;
    } else {
      var t := s[1..];
      FlatMapSplit(f, t, i - 1);
      assert t[..i - 1] == s[..i][1..];
      assert t[i - 1..] == s[i..];
    }
  }

  /** Taking the element at `i` out of `s` takes out exactly its image,
      which sits between the images of the elements before and after it. */
  lemma FlatMapRemoveAt<T, U>(f: T -> seq<U>, s: seq<T>, i: nat)
    requires i < |s|
    ensures FlatMap(f, s) == FlatMap(f, s[..i]) + f(s[i]) + FlatMap(f, s[i + 1..])
    ensures FlatMap(f, s[..i] + s[i + 1..]) == FlatMap(f, s[..i]) + FlatMap(f, s[i + 1..])
  {
    FlatMapSplit(f, s, i);
    assert s[i..][1..] == s[i + 1..];
    FlatMapConcat(f, s[..i], s[i + 1..]);
  }

  lemma MultisetMiddle<U>(a: seq<U>, b: seq<U>, c: seq<U>)
    ensures multiset(a + b + c) == multiset(b) + multiset(a + c)
  {
    assert multiset(a + b + c) == multiset(a) + multiset(b) + multiset(c);
  }

  /** Visiting the same elements in another order yields the same images,
      up to their order. */
  lemma {:induction false} FlatMapPermutation<T, U>(f: T -> seq<U>, s1: seq<T>, s2: seq<T>)
    requires NoDup(s1) && NoDup(s2) && ToSet(s1) == ToSet(s2)
    ensures multiset(FlatMap(f, s1)) == multiset(FlatMap(f, s2))
    decreases |s1|
  {
    if s1 == [] {
      CardToSet(s2);
    } else {
      var x, tail1 := s1[0], s1[1..];
      assert x in ToSet(s2);
      var i :| 0 <= i < |s2| && s2[i] == x;
      var tail2 := s2[..i] + s2[i + 1..];
      NoDupCons(s1);
      ToSetCons(s1);
      RemoveAt(s2, i);
      assert ToSet(tail1) == ToSet(tail2) by {
        assert x !in ToSet(tail1);
      }
      FlatMapPermutation(f, tail1, tail2);
      FlatMapRemoveAt(f, s2, i);
      MultisetMiddle(FlatMap(f, s2[..i]), f(x), FlatMap(f, s2[i + 1..]));
      assert FlatMap(f, s1) == f(x) + FlatMap(f, tail1);
    }
  }

}

=== FILE: paths.dfy ===
/** The pure helpers of a loaded project that name a case's files and
    values (pkg/helmhog/project.go): `CaseTempDirParts`, `TempPath` and
    `ValuesArgs`. Paths are kept as lists of segments. Joining them into one
    string is a library call; `Join` covers only segments that its cleaning
    leaves alone. */
module Paths {
  import opened Names
  import opened Cases
  import opened Projects

  /** `name, choice` for every name of the order, in order. */
  function OrderPairs(order: seq<VariableName>, c: Case): (r: seq<string>)
    ensures |r| == 2 * |order|
    ensures forall i | 0 <= i < |order| :: r[2 * i] == order[i] && r[2 * i + 1] == Lookup(c, order[i])
  {
    if order == [] then []
    else
      var rest := OrderPairs(order[1..], c);
      assert forall i | 1 <= i < |order| :: 2 * i == 2 + 2 * (i - 1) && order[i] == order[1..][i - 1];
      [order[0], Lookup(c, order[0])] + rest
  }

  /** `CaseTempDirParts`: the case's report directory, below the project's
      temporary directory, one `name/choice` level per variable of the
      order. */
  function CaseTempDirParts(l: LoadedProject, c: Case): (r: seq<string>)
    ensures |r| == 2 + 2 * |l.variableOrder|
    ensures r[0] == l.tempDir && r[1] == "reports"
    ensures forall i | 0 <= i < |l.variableOrder| ::
              r[2 + 2 * i] == l.variableOrder[i] && r[3 + 2 * i] == Lookup(c, l.variableOrder[i])
  {
    [l.tempDir, "reports"] + OrderPairs(l.variableOrder, c)
  }

  /** `TempPath`: a file of the case's report directory. */
  function TempPath(l: LoadedProject, c: Case, basename: string): (r: seq<string>)
    ensures |r| == 3 + 2 * |l.variableOrder|
    ensures r[|r| - 1] == basename
    ensures r[..|r| - 1] == CaseTempDirParts(l, c)
  {
    CaseTempDirParts(l, c) + [basename]
  }

  /** What a case reads on the variables of the order. */
  function Along(c: Case, order: seq<VariableName>): Case {
    map n | n in ToSet(order) :: Lookup(c, n)
  }

  /** Reads `name, choice` pairs back into a case. */
  function ReadPairs(s: seq<string>): Case
    decreases |s|
  {
    if |s| < 2 then map[] else ReadPairs(s[2..])[s[0] := s[1]]
  }

  lemma AlongCons(c: Case, order: seq<VariableName>)
    requires |order| > 0
    ensures Along(c, order) == Along(c, order[1..])[order[0] := Lookup(c, order[0])]
  {
    ToSetCons(order);
    var m := Along(c, order[1..])[order[0] := Lookup(c, order[0])];
    assert m.Keys == ToSet(order);
    assert forall n | n in m :: m[n] == Lookup(c, n);
  }

  /** The report directory names the case it belongs to: reading its
      `name/choice` levels back gives what the case reads on the order. */
  lemma {:induction false} ReadOrderPairs(order: seq<VariableName>, c: Case)
    ensures ReadPairs(OrderPairs(order, c)) == Along(c, order)
    decreases |order|
  {
    if order != [] {
      var rest := order[1..];
      ReadOrderPairs(rest, c);
      var s := OrderPairs(order, c);
      assert s[2..] == OrderPairs(rest, c);
      assert ReadPairs(s) == ReadPairs(s[2..])[order[0] := Lookup(c, order[0])];
      AlongCons(c, order);
    } else {
      assert ToSet(order) == {};
    }
  }

  lemma ReportDirRoundTrip(l: LoadedProject, c: Case)
    requires c.Keys == ToSet(l.variableOrder)
    ensures ReadPairs(CaseTempDirParts(l, c)[2..]) == c
  {
    assert CaseTempDirParts(l, c)[2..] == OrderPairs(l.variableOrder, c);
    ReadOrderPairs(l.variableOrder, c);
  }

  lemma SameDirSameChoices(l: LoadedProject, c1: Case, c2: Case, n: VariableName)
    requires CaseTempDirParts(l, c1) == CaseTempDirParts(l, c2)
    requires n in l.variableOrder
    ensures Lookup(c1, n) == Lookup(c2, n)
  {
    var i :| 0 <= i < |l.variableOrder| && l.variableOrder[i] == n;
    assert CaseTempDirParts(l, c1)[3 + 2 * i] == CaseTempDirParts(l, c2)[3 + 2 * i];
  }

  lemma SameChoicesSameDir(l: LoadedProject, c1: Case, c2: Case)
    requires forall n | n in l.variableOrder :: Lookup(c1, n) == Lookup(c2, n)
    ensures CaseTempDirParts(l, c1) == CaseTempDirParts(l, c2)
  {
    var order := l.variableOrder;
    var d1, d2 := CaseTempDirParts(l, c1), CaseTempDirParts(l, c2);
    forall j | 2 <= j < |d1|
      ensures d1[j] == d2[j]
    {
      var i := (j - 2) / 2;
      assert order[i] in order;
      assert j == 2 + 2 * i || j == 3 + 2 * i;
    }
  }

  /** Two cases share a report directory exactly when they read the same
      choice on every variable of the order. */
  lemma CaseTempDirPartsInjective(l: LoadedProject, c1: Case, c2: Case)
    ensures CaseTempDirParts(l, c1) == CaseTempDirParts(l, c2) <==>
            forall n | n in l.variableOrder :: Lookup(c1, n) == Lookup(c2, n)
  {
    if CaseTempDirParts(l, c1) == CaseTempDirParts(l, c2) {
      forall n | n in l.variableOrder
        ensures Lookup(c1, n) == Lookup(c2, n)
      {
        SameDirSameChoices(l, c1, c2, n);
      }
    }
    if forall n | n in l.variableOrder :: Lookup(c1, n) == Lookup(c2, n) {
      SameChoicesSameDir(l, c1, c2);
    }
  }

  /** Two report files coincide exactly when their base names are equal and
      the cases read the same on every variable of the order. */
  lemma TempPathInjective(l: LoadedProject, c1: Case, b1: string, c2: Case, b2: string)
    ensures TempPath(l, c1, b1) == TempPath(l, c2, b2) <==>
            b1 == b2 && forall n | n in l.variableOrder :: Lookup(c1, n) == Lookup(c2, n)
  {
    CaseTempDirPartsInjective(l, c1, c2);
    var t1, t2 := TempPath(l, c1, b1), TempPath(l, c2, b2);
    if t1 == t2 {
      assert t1[..|t1| - 1] == t2[..|t2| - 1];
    }
  }

  /** Segments joined with "/". When this string is already clean (no
      empty, "." or ".." element and no doubled or trailing separator),
      `filepath.Join` yields exactly it. */
  function Join(segs: seq<string>): (r: string)
    ensures segs == [] ==> r == ""
    ensures |segs| == 1 ==> r == segs[0]
    ensures |segs| > 1 ==> |r| > |segs[0]| && r[..|segs[0]| + 1] == segs[0] + "/"
  {
    if segs == [] then ""
    else if |segs| == 1 then segs[0]
    else segs[0] + "/" + Join(segs[1..])
  }

  const slashProject := Project("", [], {"base"},
                                map["a" := map["x" := [], "x/b" := []], "b" := map["y" := [], "b/y" := []]],
                                ["a", "b"], map[], map[])
  const slashLoaded := LoadedProject(slashProject, "T", ".", ["a", "b"], ["a", "b"], map["base" := "T/base.yaml"])

  /** Segment lists identify a case, but joined paths do not: a separator
      inside a choice name moves a level boundary. With order `[a, b]`, the
      cases `{a: x/b, b: y}` and `{a: x, b: b/y}` have different segment
      lists, and both join to `T/reports/a/x/b/b/y`. They share a report
      directory and one's `err` file overwrites the other's. */
  lemma SeparatorInChoiceCollides()
    ensures var c1, c2 := map["a" := "x/b", "b" := "y"], map["a" := "x", "b" := "b/y"];
            && c1 != c2
            && CaseTempDirParts(slashLoaded, c1) != CaseTempDirParts(slashLoaded, c2)
            && Join(CaseTempDirParts(slashLoaded, c1)) == Join(CaseTempDirParts(slashLoaded, c2))
            && Join(TempPath(slashLoaded, c1, "err")) == Join(TempPath(slashLoaded, c2, "err"))
  {
    var c1, c2 := map["a" := "x/b", "b" := "y"], map["a" := "x", "b" := "b/y"];
    var top := ["T", "reports", "a"];
    SlashSegments(c1, "x/b", "y");
    SlashSegments(c2, "x", "b/y");
    assert c1["a"] != c2["a"];
    SameJoin(top, "x/b", "y", "x", "b/y");
  }

  /** The segment lists of a case of the two-variable project. */
  lemma SlashSegments(c: Case, u: ChoiceName, v: ChoiceName)
    requires c == map["a" := u, "b" := v]
    ensures CaseTempDirParts(slashLoaded, c) == ["T", "reports", "a"] + [u, "b", v]
    ensures TempPath(slashLoaded, c, "err") == ["T", "reports", "a"] + [u, "b", v, "err"]
  {
    var order, d := slashLoaded.variableOrder, CaseTempDirParts(slashLoaded, c);
    assert order == ["a", "b"] && slashLoaded.tempDir == "T";
    assert Lookup(c, "a") == u && Lookup(c, "b") == v;
    assert d[2] == order[0] && d[3] == Lookup(c, order[0]);
    assert d[4] == order[1] && d[5] == Lookup(c, order[1]);
    assert d == ["T", "reports", "a", u, "b", v];
  }

  /** Two choice pairs whose `u/b/v` strings agree give equal joins. */
  lemma SameJoin(top: seq<string>, u1: string, v1: string, u2: string, v2: string)
    requires top != []
    requires u1 + "/" + "b" + "/" + v1 == u2 + "/" + "b" + "/" + v2
    ensures Join(top + [u1, "b", v1]) == Join(top + [u2, "b", v2])
    ensures Join(top + [u1, "b", v1, "err"]) == Join(top + [u2, "b", v2, "err"])
  {
    JoinSplit(top, [u1, "b", v1]);
    JoinSplit(top, [u2, "b", v2]);
    JoinSplit(top, [u1, "b", v1, "err"]);
    JoinSplit(top, [u2, "b", v2, "err"]);
    JoinSplit([u1, "b", v1], ["err"]);
    JoinSplit([u2, "b", v2], ["err"]);
    assert [u1, "b", v1] + ["err"] == [u1, "b", v1, "err"];
    assert [u2, "b", v2] + ["err"] == [u2, "b", v2, "err"];
    JoinThree(u1, "b", v1);
    JoinThree(u2, "b", v2);
  }

  /** Joining two non-empty lists puts one separator between their joins. */
  lemma {:induction false} JoinSplit(a: seq<string>, b: seq<string>)
    requires a != [] && b != []
    ensures Join(a + b) == Join(a) + "/" + Join(b)
    decreases |a|
  {
    if |a| > 1 {
      assert (a + b)[1..] == a[1..] + b;
      JoinSplit(a[1..], b);
    } else {
      assert (a + b)[1..] == b;
    }
  }

  lemma JoinThree(x: string, y: string, z: string)
    ensures Join([x, y, z]) == x + "/" + y + "/" + z
  {
    assert [x, y, z][1..] == [y, z] && [y, z][1..] == [z];
  }

  /** The parts a choice contributes; an undeclared variable or choice
      contributes none, as indexing Go's maps yields nil. */
  function PartsOf(p: Project, name: VariableName, choice: ChoiceName): seq<PartName> {
    if name in p.variables && choice in p.variables[name] then p.variables[name][choice] else []
  }

  /** Where a part was written or found; an unknown part reads as "". */
  function PathOf(l: LoadedProject, part: PartName): PartPath {
    if part in l.partsMapping then l.partsMapping[part] else ""
  }

  function PartPaths(l: LoadedProject, parts: seq<PartName>): (r: seq<PartPath>)
    ensures |r| == |parts|
    ensures forall i | 0 <= i < |parts| :: r[i] == PathOf(l, parts[i])
  {
    if parts == [] then [] else [PathOf(l, parts[0])] + PartPaths(l, parts[1..])
  }

  /** The part paths of the choice the case makes for `name`. */
  function ChosenPaths(l: LoadedProject, c: Case, name: VariableName): seq<PartPath> {
    PartPaths(l, PartsOf(l.project, name, Lookup(c, name)))
  }

  /** The part paths of the chosen choices, variable by variable in the
      order `names`. */
  function PathsAlong(l: LoadedProject, c: Case, names: seq<VariableName>): seq<PartPath> {
    FlatMap(n => ChosenPaths(l, c, n), names)
  }

  /** Each path belongs to a part of the choice the case makes for one of
      the names, and every such part contributes its path. */
  lemma {:induction false} PathsAlongMembers(l: LoadedProject, c: Case, names: seq<VariableName>)
    ensures forall path | path in PathsAlong(l, c, names) ::
              exists n, part | n in names && part in PartsOf(l.project, n, Lookup(c, n)) :: path == PathOf(l, part)
    ensures forall n, part | n in names && part in PartsOf(l.project, n, Lookup(c, n)) ::
              PathOf(l, part) in PathsAlong(l, c, names)
    decreases |names|
  {
    if names != [] {
      PathsAlongMembers(l, c, names[1..]);
      var parts := PartsOf(l.project, names[0], Lookup(c, names[0]));
      var here := PartPaths(l, parts);
      assert PathsAlong(l, c, names) == here + PathsAlong(l, c, names[1..]);
      forall path | path in here
        ensures exists part | part in parts :: path == PathOf(l, part)
      {
        var i :| 0 <= i < |here| && here[i] == path;
        assert parts[i] in parts;
      }
      forall n, part | n in names && part in PartsOf(l.project, n, Lookup(c, n))
        ensures PathOf(l, part) in PathsAlong(l, c, names)
      {
        if n == names[0] {
          var i :| 0 <= i < |parts| && parts[i] == part;
          assert here[i] == PathOf(l, part);
        } else {
          assert n in names[1..];
        }
      }
    }
  }

  /** `--values path` for each path, in order. */
  function ValuesFlags(paths: seq<PartPath>): (r: seq<string>)
    ensures |r| == 2 * |paths|
    ensures forall i | 0 <= i < |paths| :: r[2 * i] == "--values" && r[2 * i + 1] == paths[i]
  {
    if paths == [] then []
    else
      var rest := ValuesFlags(paths[1..]);
      var r := ["--values", paths[0]] + rest;
      assert forall i | 0 <= i < |paths| :: r[2 * i] == "--values" && r[2 * i + 1] == paths[i] by {
        forall i | 0 <= i < |paths|
          ensures r[2 * i] == "--values" && r[2 * i + 1] == paths[i]
        {
          if i > 0 {
            assert r[2 * i] == rest[2 * (i - 1)] && r[2 * i + 1] == rest[2 * (i - 1) + 1];
            assert paths[i] == paths[1..][i - 1];
          }
        }
      }
      r
  }

  lemma {:induction false} ValuesFlagsConcat(a: seq<PartPath>, b: seq<PartPath>)
    ensures ValuesFlags(a + b) == ValuesFlags(a) + ValuesFlags(b)
    decreases |a|
  {
    if a != [] {
      assert (a + b)[1..] == a[1..] + b;
      ValuesFlagsConcat(a[1..], b);
    } else {
      assert a + b == b;
    }
  }

  /** The arguments one variable of the case contributes. */
  function ArgsFor(l: LoadedProject, c: Case): VariableName -> seq<string> {
    n => ValuesFlags(ChosenPaths(l, c, n))
  }

  /** `ValuesArgs`: `--values path` for every part of every chosen choice.
      `keyIter` is the order in which ranging over the case yields its
      variables. */
  function ValuesArgs(l: LoadedProject, c: Case, keyIter: seq<VariableName>): (r: seq<string>)
    requires Enumerates(keyIter, c.Keys)
    ensures r == ValuesFlags(PathsAlong(l, c, keyIter))
  {
    ValuesArgsArePaths(l, c, keyIter);
    FlatMap(ArgsFor(l, c), keyIter)
  }

  /** The arguments are `--values path` for each path the chosen choices
      contribute, variable by variable. */
  lemma {:induction false} ValuesArgsArePaths(l: LoadedProject, c: Case, names: seq<VariableName>)
    ensures FlatMap(ArgsFor(l, c), names) == ValuesFlags(PathsAlong(l, c, names))
    decreases |names|
  {
    if names != [] {
      ValuesArgsArePaths(l, c, names[1..]);
      ValuesFlagsConcat(ChosenPaths(l, c, names[0]), PathsAlong(l, c, names[1..]));
    }
  }

  /** `ValuesArgs` yields the same arguments, up to their order, whatever
      order the case's variables are ranged over in. */
  lemma ValuesArgsOrderIndependent(l: LoadedProject, c: Case, k1: seq<VariableName>, k2: seq<VariableName>)
    requires Enumerates(k1, c.Keys) && Enumerates(k2, c.Keys)
    ensures multiset(ValuesArgs(l, c, k1)) == multiset(ValuesArgs(l, c, k2))
  {
    FlatMapPermutation(ArgsFor(l, c), k1, k2);
  }
}

=== FILE: pipeline.dfy ===
/** The `test` command end to end (cmd/test.go): load the project, generate
    its cases and run them, with the run made sequential. */
module Pipeline {
  import opened Names
  import opened Cases
  import opened Projects
  import opened Generation
  import opened Runner

  datatype TestOutcome =
    | LoadFailed(error: LoadError)
    | Ran(loaded: LoadedProject, cases: seq<Case>, summary: Summary, results: seq<Result>)

  /** "All cases passed!": nothing failed and nothing was skipped. */
  predicate AllPassed(s: Summary) {
    s.failed == [] && s.skipped == []
  }

  /** What a completed run promises about the cases it was given. */
  predicate RanWell(p: Project, o: Options, env: Environment, cases: seq<Case>, s: Summary) {
    && |s.skipped| + s.resultCount == |cases|
    && (!o.pruneFailedChoices ==> s.resultCount == |cases|)
    && (AllPassed(s) <==> forall c | c in cases :: !CaseFails(env, o, c))
    && forall c | c in s.failed :: Allows(p, c) && c.Keys == p.variables.Keys
  }

  /** What generation promises for a loaded project: no case twice, at most
      the product of the declared choice counts (exactly that many without
      rules), and each case allowed and assigning every declared variable a
      declared choice. */
  predicate Generated(p: Project, l: LoadedProject, cases: seq<Case>) {
    && NoDup(cases)
    && |cases| <= ChoiceCountProduct(p.variables, l.variableOrder)
    && (NoRules(p) ==> |cases| == ChoiceCountProduct(p.variables, l.variableOrder))
    && forall x | x in cases :: Allows(p, x) && x.Keys == p.variables.Keys && forall n | n in x :: x[n] in p.variables[n]
  }

  /** Run cases that each assign every declared variable and are allowed,
      as the generator's are. */
  method RunCases(p: Project, cases: seq<Case>, o: Options, env: Environment)
    returns (s: Summary, results: seq<Result>)
    requires forall x | x in cases :: Allows(p, x) && x.Keys == p.variables.Keys
    ensures RanWell(p, o, env, cases, s)
  {
    assert forall x | x in cases :: x.Keys <= p.variables.Keys;
    s, results := Run(p.variables.Keys, cases, o, env);
    FailedAreCases(results, cases);
    assert forall c | c in s.failed :: c in cases;
  }

  /** Load, generate, run. `keyIter` and `it` fix the orders in which Go
      happens to range over the variables and over each variable's
      choices. */
  method Test(p: Project, keyIter: seq<VariableName>, tempDir: string, partsMapping: map<PartName, PartPath>,
              it: ChoiceIteration, o: Options, env: Environment)
    returns (outcome: TestOutcome)
    requires Enumerates(keyIter, p.variables.Keys)
    requires IteratesChoices(p.variables, it)
    ensures outcome.LoadFailed? <==> !Load(p, keyIter, tempDir, partsMapping).Loaded?
    ensures outcome.LoadFailed? ==>
              Load(p, keyIter, tempDir, partsMapping).Rejected? &&
              outcome.error == Load(p, keyIter, tempDir, partsMapping).error &&
              Explains(p, partsMapping, outcome.error)
    ensures outcome.Ran? ==>
              outcome.loaded == Load(p, keyIter, tempDir, partsMapping).loaded &&
              outcome.cases == GenerateCases(outcome.loaded, it) &&
              RanWell(p, o, env, outcome.cases, outcome.summary)
    ensures outcome.Ran? ==> Generated(p, outcome.loaded, outcome.cases)
  {
    var loadOutcome := Load(p, keyIter, tempDir, partsMapping);
    if loadOutcome.Loaded? {
      var l := loadOutcome.loaded;
      LoadedGeneration(p, keyIter, tempDir, partsMapping, it);
      var cases := GenerateCases(l, it);
      assert Generated(p, l, cases);
      var s, results := RunCases(p, cases, o, env);
      outcome := Ran(l, cases, s, results);
    } else {
      outcome := LoadFailed(loadOutcome.error);
    }
  }

  /** A failed case is one of the cases run. */
  lemma FailedAreCases(results: seq<Result>, cases: seq<Case>)
    requires |results| == |cases|
    requires forall i | 0 <= i < |results| :: results[i].c == cases[i]
    ensures forall c | c in FailedCases(results) :: c in cases
  {
    forall c | c in FailedCases(results)
      ensures c in cases
    {
      FailedCasesFrom(results, c);
    }
  }
}

=== FILE: projects.dfy ===
/** The project definition and the pure part of loading it
    (pkg/helmhog/project.go): the conjunction of all rules, the structural
    checks `Load` performs, and how it settles the variable order. */
module Projects {
  import opened Names
  import opened Cases
  import opened Rules

  /** A project as declared. Inline part contents are raw YAML and play no
      role in the checks, so only their names are kept. */
  datatype Project = Project(
    chart: string,
    partsDirs: seq<string>,
    parts: set<PartName>,
    variables: map<VariableName, Variable>,
    variableOrder: seq<VariableName>,
    requirements: map<RuleName, Requirement>,
    restrictions: map<RuleName, Restriction>)

  /** A successfully loaded project. `tempDir` and `partsMapping` come from
      the file-system work of `Load` and are taken as given. */
  datatype LoadedProject = LoadedProject(
    project: Project,
    tempDir: string,
    chart: string,
    variableOrder: seq<VariableName>,
    reverseVariableOrder: seq<VariableName>,
    partsMapping: map<PartName, PartPath>)

  datatype LoadError =
    | NoParts
    | NoVariables
    | VariableWithoutChoices
    | EmptyIf
    | EmptyThen
    | EmptyRestriction
    | UnresolvedPart
    | UndefinedInIf
    | UndefinedInThen
    | UndefinedInRestriction
    | MissingFromOrder(missing: set<VariableName>)
    | ExcessInOrder

  /** What `Load` can end in. `IndexOutOfRangePanic` is the Go runtime panic
      raised when the order has more entries than there are variables. */
  datatype LoadOutcome =
    | Loaded(loaded: LoadedProject)
    | Rejected(error: LoadError)
    | IndexOutOfRangePanic

  predicate Allows(p: Project, c: Case) {
    && (forall n | n in p.requirements :: RequirementAllows(p.requirements[n], c))
    && (forall n | n in p.restrictions :: RestrictionAllows(p.restrictions[n], c))
  }

  predicate NoRules(p: Project) {
    p.requirements == map[] && p.restrictions == map[]
  }

  /** `Project.Allows` as the source writes it: walk the requirements, then
      the restrictions, in whatever order the two maps are ranged over, and
      answer false at the first rule that disallows the case. The answer is
      the conjunction of all rules, so rule order does not matter. */
  method AllowsLoop(p: Project, c: Case, requirementNames: seq<RuleName>, restrictionNames: seq<RuleName>)
    returns (allowed: bool)
    requires forall n :: n in requirementNames <==> n in p.requirements
    requires forall n :: n in restrictionNames <==> n in p.restrictions
    ensures allowed <==>
              (forall n | n in p.requirements :: RequirementAllows(p.requirements[n], c)) &&
              (forall n | n in p.restrictions :: RestrictionAllows(p.restrictions[n], c))
  {
    var i := 0;
    while i < |requirementNames|
      invariant 0 <= i <= |requirementNames|
      invariant forall j | 0 <= j < i :: RequirementAllows(p.requirements[requirementNames[j]], c)
    {
      if !RequirementAllows(p.requirements[requirementNames[i]], c) {
        return false;
      }
      i := i + 1;
    }
    assert forall n | n in p.requirements :: RequirementAllows(p.requirements[n], c) by {
      forall n | n in p.requirements
        ensures RequirementAllows(p.requirements[n], c)
      {
        var j :| 0 <= j < |requirementNames| && requirementNames[j] == n;
      }
    }
    i := 0;
    while i < |restrictionNames|
      invariant 0 <= i <= |restrictionNames|
      invariant forall j | 0 <= j < i :: RestrictionAllows(p.restrictions[restrictionNames[j]], c)
    {
      if !RestrictionAllows(p.restrictions[restrictionNames[i]], c) {
        return false;
      }
      i := i + 1;
    }
    assert forall n | n in p.restrictions :: RestrictionAllows(p.restrictions[n], c) by {
      forall n | n in p.restrictions
        ensures RestrictionAllows(p.restrictions[n], c)
      {
        var j :| 0 <= j < |restrictionNames| && restrictionNames[j] == n;
      }
    }
    return true;
  }

  // The structural conditions `Load` insists on, each stated on its own.

  predicate HasParts(p: Project) {
    |p.partsDirs| + |p.parts| > 0
  }

  predicate EveryVariableHasChoices(p: Project) {
    forall v | v in p.variables :: |p.variables[v]| > 0
  }

  predicate IfsNonEmpty(p: Project) {
    forall n | n in p.requirements :: p.requirements[n].ifPart != map[]
  }

  predicate ThensNonEmpty(p: Project) {
    forall n | n in p.requirements :: p.requirements[n].thenPart != map[]
  }

  predicate RestrictionsNonEmpty(p: Project) {
    forall n | n in p.restrictions :: p.restrictions[n] != map[]
  }

  predicate PartsResolved(p: Project, partsMapping: map<PartName, PartPath>) {
    forall v, ch, part | v in p.variables && ch in p.variables[v] && part in p.variables[v][ch] :: part in partsMapping
  }

  /** Every pair of `m` names a declared variable and one of its choices. */
  predicate Declared(p: Project, m: MappingSet) {
    forall k | k in m :: k in p.variables && m[k] in p.variables[k]
  }

  predicate IfsDeclared(p: Project) {
    forall n | n in p.requirements :: Declared(p, p.requirements[n].ifPart)
  }

  predicate ThensDeclared(p: Project) {
    forall n | n in p.requirements :: Declared(p, p.requirements[n].thenPart)
  }

  predicate RestrictionsDeclared(p: Project) {
    forall n | n in p.restrictions :: Declared(p, p.restrictions[n])
  }

  predicate WellFormed(p: Project, partsMapping: map<PartName, PartPath>) {
    && HasParts(p)
    && |p.variables| > 0
    && EveryVariableHasChoices(p)
    && IfsNonEmpty(p)
    && ThensNonEmpty(p)
    && RestrictionsNonEmpty(p)
    && PartsResolved(p, partsMapping)
    && IfsDeclared(p)
    && ThensDeclared(p)
    && RestrictionsDeclared(p)
  }

  /** The declared condition that justifies reporting `e`. */
  predicate Explains(p: Project, partsMapping: map<PartName, PartPath>, e: LoadError) {
    match e
    case NoParts => !HasParts(p)
    case NoVariables => |p.variables| == 0
    case VariableWithoutChoices => !EveryVariableHasChoices(p)
    case EmptyIf => !IfsNonEmpty(p)
    case EmptyThen => !ThensNonEmpty(p)
    case EmptyRestriction => !RestrictionsNonEmpty(p)
    case UnresolvedPart => !PartsResolved(p, partsMapping)
    case UndefinedInIf => !IfsDeclared(p)
    case UndefinedInThen => !ThensDeclared(p)
    case UndefinedInRestriction => !RestrictionsDeclared(p)
    case MissingFromOrder(missing) =>
      |p.variableOrder| > 0 && missing != {} && missing == p.variables.Keys - ToSet(p.variableOrder)
    case ExcessInOrder =>
      |p.variableOrder| > |p.variables| && p.variables.Keys <= ToSet(p.variableOrder)
  }

  /** The structural checks of `Load`, kind by kind in the order the source
      makes them. Several failing checks of one kind are reported once; which
      rule or variable the message names, and whether an `If` or a `Then`
      failure of two different requirements is met first, depends on map
      iteration order and is not modelled. */
  function CheckStructure(p: Project, partsMapping: map<PartName, PartPath>): (r: Option<LoadError>)
    ensures r.None? <==> WellFormed(p, partsMapping)
    ensures r.Some? ==> Explains(p, partsMapping, r.value)
  {
    if !HasParts(p) then Some(NoParts)
    else if |p.variables| == 0 then Some(NoVariables)
    else if !EveryVariableHasChoices(p) then Some(VariableWithoutChoices)
    else if !IfsNonEmpty(p) then Some(EmptyIf)
    else if !ThensNonEmpty(p) then Some(EmptyThen)
    else if !RestrictionsNonEmpty(p) then Some(EmptyRestriction)
    else if !PartsResolved(p, partsMapping) then Some(UnresolvedPart)
    else if !IfsDeclared(p) then Some(UndefinedInIf)
    else if !ThensDeclared(p) then Some(UndefinedInThen)
    else if !RestrictionsDeclared(p) then Some(UndefinedInRestriction)
    else None
  }

  function ChartOrDefault(chart: string): string {
    if chart == "" then "." else chart
  }

  /** `count` empty names: the zero-initialised slots of a Go slice. */
  function Blanks(count: nat): (r: seq<VariableName>)
    ensures |r| == count
  {
    seq(count, _ => "")
  }

  /** Counting facts about orders of the variables: the map's own key order
      has one slot per variable, and a declared order that mentions every
      variable lists each exactly once precisely when it has no more slots
      than there are variables. */
  lemma OrderFacts(p: Project, keyIter: seq<VariableName>)
    requires Enumerates(keyIter, p.variables.Keys)
    ensures |keyIter| == |p.variables|
    ensures p.variables.Keys <= ToSet(p.variableOrder) ==>
              (Enumerates(p.variableOrder, p.variables.Keys) <==> |p.variableOrder| <= |p.variables|)
    ensures Enumerates(p.variableOrder, p.variables.Keys) ==> |p.variableOrder| == |p.variables|
  {
    EnumerationLength(keyIter, p.variables.Keys);
    if Enumerates(p.variableOrder, p.variables.Keys) {
      EnumerationLength(p.variableOrder, p.variables.Keys);
    }
    if p.variables.Keys <= ToSet(p.variableOrder) {
      if |p.variableOrder| <= |p.variables| {
        CoveringAndShortEnumerates(p.variableOrder, p.variables.Keys);
      }
      if Enumerates(p.variableOrder, p.variables.Keys) {
        EnumerationLength(p.variableOrder, p.variables.Keys);
      }
    }
  }

  lemma SetMinusEmpty<T>(a: set<T>, b: set<T>)
    ensures a - b == {} <==> a <= b
  {
    if a - b == {} {
      forall x | x in a
        ensures x in b
      {
        assert x !in a - b;
      }
    }
  }

  /** `Load` as written. `keyIter` is the order in which ranging over the
      variables map yields its keys, used when no order is declared. */
  function LoadAsWritten(p: Project, keyIter: seq<VariableName>, tempDir: string, partsMapping: map<PartName, PartPath>)
    : (r: LoadOutcome)
    requires Enumerates(keyIter, p.variables.Keys)
    ensures r.IndexOutOfRangePanic? <==>
              WellFormed(p, partsMapping) && |p.variableOrder| > 0 &&
              p.variables.Keys <= ToSet(p.variableOrder) && |p.variableOrder| > |p.variables|
    ensures r.Rejected? ==> Explains(p, partsMapping, r.error)
    ensures r.Loaded? ==> LoadedFrom(r.loaded, p, keyIter, tempDir, partsMapping)
  {
    match CheckStructure(p, partsMapping)
    case Some(e) => Rejected(e)
    case None => SettleOrder(p, keyIter, tempDir, partsMapping)
  }

  /** The rest of `Load` once the structure is sound. A declared order must
      mention every variable. The reverse order is then filled slot by slot
      into a slice sized by the number of variables, so an order with extra
      or repeated names runs past its end and panics. The `sort.Reverse`
      value is discarded, so the reverse order is a plain copy of the
      order. */
  function SettleOrder(p: Project, keyIter: seq<VariableName>, tempDir: string, partsMapping: map<PartName, PartPath>)
    : (r: LoadOutcome)
    requires Enumerates(keyIter, p.variables.Keys)
    requires WellFormed(p, partsMapping)
    ensures r.IndexOutOfRangePanic? <==>
              |p.variableOrder| > 0 && p.variables.Keys <= ToSet(p.variableOrder) && |p.variableOrder| > |p.variables|
    ensures r.Rejected? ==> Explains(p, partsMapping, r.error)
    ensures r.Loaded? ==> LoadedFrom(r.loaded, p, keyIter, tempDir, partsMapping)
  {
    OrderFacts(p, keyIter);
    var missing := p.variables.Keys - ToSet(p.variableOrder);
    SetMinusEmpty(p.variables.Keys, ToSet(p.variableOrder));
    if |p.variableOrder| > 0 && missing != {} then
      Rejected(MissingFromOrder(missing))
    else
      var order := if |p.variableOrder| == 0 then keyIter else p.variableOrder;
      if |order| > |p.variables| then
        IndexOutOfRangePanic
      else
        var reverse := order + Blanks(|p.variables| - |order|);
        Loaded(LoadedProject(p, tempDir, ChartOrDefault(p.chart), order, reverse, partsMapping))
  }

  /** What a successful load promises: the project and file-system results
      are kept, the chart defaults to ".", the order is the declared one (or
      the map's own key order when none is declared) and lists every
      variable exactly once, and the reverse order equals the order. */
  predicate LoadedFrom(l: LoadedProject, p: Project, keyIter: seq<VariableName>, tempDir: string,
                       partsMapping: map<PartName, PartPath>) {
    && WellFormed(p, partsMapping)
    && l.project == p
    && l.tempDir == tempDir
    && l.partsMapping == partsMapping
    && l.chart == ChartOrDefault(p.chart)
    && l.variableOrder == (if |p.variableOrder| == 0 then keyIter else p.variableOrder)
    && Enumerates(l.variableOrder, p.variables.Keys)
    && l.reverseVariableOrder == l.variableOrder
  }

  /** `Load` with the panic replaced by an error: an order with extra or
      repeated names is rejected. Loading then succeeds exactly when the
      structure is sound and the order, if declared, lists every variable
      once. */
  function Load(p: Project, keyIter: seq<VariableName>, tempDir: string, partsMapping: map<PartName, PartPath>)
    : (r: LoadOutcome)
    requires Enumerates(keyIter, p.variables.Keys)
    ensures !r.IndexOutOfRangePanic?
    ensures r.Loaded? <==>
              WellFormed(p, partsMapping) && (|p.variableOrder| == 0 || Enumerates(p.variableOrder, p.variables.Keys))
    ensures r.Rejected? ==> Explains(p, partsMapping, r.error)
    ensures r.Loaded? ==> LoadedFrom(r.loaded, p, keyIter, tempDir, partsMapping)
  {
    OrderFacts(p, keyIter);
    var outcome := LoadAsWritten(p, keyIter, tempDir, partsMapping);
    if outcome.IndexOutOfRangePanic? then Rejected(ExcessInOrder) else outcome
  }

  /** The discrepancy: a declared order that names the only variable twice
      covers every variable, so it passes the missing-name check, and is
      neither accepted nor rejected by the source; loading panics. */
  lemma LoadPanicsOnRepeatedName()
    ensures var p := Project("", [], {"base"}, map["a" := map["x" := ["base"]]], ["a", "a"], map[], map[]);
            LoadAsWritten(p, ["a"], "/tmp", map["base" := "/tmp/base.yaml"]) == IndexOutOfRangePanic &&
            Load(p, ["a"], "/tmp", map["base" := "/tmp/base.yaml"]) == Rejected(ExcessInOrder)
  {
    var p := Project("", [], {"base"}, map["a" := map["x" := ["base"]]], ["a", "a"], map[], map[]);
    assert ToSet(["a"]) == {"a"};
    assert ToSet(p.variableOrder) == {"a"};
    assert WellFormed(p, map["base" := "/tmp/base.yaml"]);
  }
}

=== FILE: rules.dfy ===
/** Requirement and restriction rules (pkg/helmhog/rule.go). Both are pure
    predicates over a case; a variable the case does not assign reads as the
    empty choice name, exactly as Go's map index does. */
module Rules {
  import opened Names
  import opened Cases

  /** If every pair of `ifPart` matches, every pair of `thenPart` must too. */
  datatype Requirement = Requirement(ifPart: MappingSet, thenPart: MappingSet)

  /** A combination that may not occur. */
  type Restriction = MappingSet

  /** Every pair of `m` is what `c` reads at that variable. */
  predicate Matches(m: MappingSet, c: Case) {
    forall k | k in m :: Lookup(c, k) == m[k]
  }

  predicate RequirementAllows(r: Requirement, c: Case) {
    Matches(r.ifPart, c) ==> Matches(r.thenPart, c)
  }

  predicate RestrictionAllows(r: Restriction, c: Case) {
    !Matches(r, c)
  }

  /** `Requirement.Allows` as the source writes it: range over `If` and
      return true at the first mismatch, then range over `Then` and return
      false at the first mismatch. `ifKeys` and `thenKeys` are the orders in
      which the two maps happen to be ranged over; the answer is the same
      for every such order. */
  method RequirementAllowsLoop(r: Requirement, c: Case, ifKeys: seq<VariableName>, thenKeys: seq<VariableName>)
    returns (allowed: bool)
    requires forall k :: k in ifKeys <==> k in r.ifPart
    requires forall k :: k in thenKeys <==> k in r.thenPart
    ensures allowed == RequirementAllows(r, c)
    ensures !allowed <==>
              (forall k | k in r.ifPart :: Lookup(c, k) == r.ifPart[k]) &&
              (exists k | k in r.thenPart :: Lookup(c, k) != r.thenPart[k])
  {
    var i := 0;
    while i < |ifKeys|
      invariant 0 <= i <= |ifKeys|
      invariant forall j | 0 <= j < i :: Lookup(c, ifKeys[j]) == r.ifPart[ifKeys[j]]
    {
      var k := ifKeys[i];
      if Lookup(c, k) != r.ifPart[k] {
        return true;
      }
      i := i + 1;
    }
    assert Matches(r.ifPart, c) by {
      forall k | k in r.ifPart
        ensures Lookup(c, k) == r.ifPart[k]
      {
        var j :| 0 <= j < |ifKeys| && ifKeys[j] == k;
      }
    }
    i := 0;
    while i < |thenKeys|
      invariant 0 <= i <= |thenKeys|
      invariant forall j | 0 <= j < i :: Lookup(c, thenKeys[j]) == r.thenPart[thenKeys[j]]
    {
      var k := thenKeys[i];
      if Lookup(c, k) != r.thenPart[k] {
        return false;
      }
      i := i + 1;
    }
    assert Matches(r.thenPart, c) by {
      forall k | k in r.thenPart
        ensures Lookup(c, k) == r.thenPart[k]
      {
        var j :| 0 <= j < |thenKeys| && thenKeys[j] == k;
      }
    }
    return true;
  }

  /** `Restriction.Allows` as the source writes it: true at the first
      mismatching pair, false when every pair matches, whatever order the
      restriction is ranged over in. */
  method RestrictionAllowsLoop(r: Restriction, c: Case, keys: seq<VariableName>) returns (allowed: bool)
    requires forall k :: k in keys <==> k in r
    ensures allowed == RestrictionAllows(r, c)
    ensures !allowed <==> forall k | k in r :: Lookup(c, k) == r[k]
  {
    var i := 0;
    while i < |keys|
      invariant 0 <= i <= |keys|
      invariant forall j | 0 <= j < i :: Lookup(c, keys[j]) == r[keys[j]]
    {
      var k := keys[i];
      if Lookup(c, k) != r[k] {
        return true;
      }
      i := i + 1;
    }
    assert Matches(r, c) by {
      forall k | k in r
        ensures Lookup(c, k) == r[k]
      {
        var j :| 0 <= j < |keys| && keys[j] == k;
      }
    }
    return false;
  }

  /** An `If` variable the case does not assign cannot match a non-empty
      choice name, so the requirement does not apply yet. */
  lemma AbsentIfVariableAllows(r: Requirement, c: Case, k: VariableName)
    requires k in r.ifPart && r.ifPart[k] != ""
    requires k !in c
    ensures RequirementAllows(r, c)
  {
  }

  /** A `Then` variable the case does not assign counts as a mismatch: once
      the `If` part matches, a partial case lacking a `Then` variable is
      rejected before that variable has been chosen. */
  lemma AbsentThenVariableRejects(r: Requirement, c: Case, k: VariableName)
    requires Matches(r.ifPart, c)
    requires k in r.thenPart && r.thenPart[k] != ""
    requires k !in c
    ensures !RequirementAllows(r, c)
  {
  }

  /** Degenerate rules: an empty restriction forbids every case, a
      requirement with an empty `Then` forbids none, and one with an empty
      `If` imposes its `Then` on every case. */
  lemma DegenerateRules(r: Requirement, c: Case)
    ensures !RestrictionAllows(map[], c)
    ensures r.thenPart == map[] ==> RequirementAllows(r, c)
    ensures r.ifPart == map[] ==> (RequirementAllows(r, c) <==> Matches(r.thenPart, c))
  {
  }

  /** A restriction that forbids a case forbids every case extending it,
      provided none of its choice names is the empty string. */
  lemma RestrictionClosedUnderExtension(r: Restriction, small: Case, big: Case)
    requires forall k | k in r :: r[k] != ""
    requires Extends(big, small)
    requires !RestrictionAllows(r, small)
    ensures !RestrictionAllows(r, big)
  {
    forall k | k in r
      ensures Lookup(big, k) == r[k]
    {
      assert Lookup(small, k) == r[k];
    }
  }

  /** Without that proviso the closure fails: a restriction naming the empty
      choice matches the empty case but not a case that assigns the
      variable. */
  lemma EmptyChoiceNameBreaksClosure()
    ensures var r: Restriction := map["a" := ""];
            !RestrictionAllows(r, map[]) && Extends(map["a" := "x"], map[]) &&
            RestrictionAllows(r, map["a" := "x"])
  {
    var r: Restriction := map["a" := ""];
    assert Lookup(map["a" := "x"], "a") != r["a"];
  }
}

=== FILE: runner.dfy ===
/** The `test` command's per-case work and result collection (cmd/test.go),
    run as a sequential loop: each case is handed to a worker, whose result
    the collector records before the next case is taken. The commands the
    worker runs and the files it writes are an `Environment` of outcomes. */
module Runner {
  import opened Names
  import opened Cases

  /** Which validation the worker runs: `Lint` alone, `Validate` (lint, then
      the rendered templates through a client-side dry-run apply), or
      `ValidateWithApply`. */
  datatype Mode = LintOnly | NoApply | WithApply

  datatype Options = Options(pruneFailedChoices: bool, onlyLint: bool, noApply: bool)

  function ModeOf(o: Options): Mode {
    if o.onlyLint then LintOnly else if o.noApply then NoApply else WithApply
  }

  /** Which outside steps fail for a case: creating its report directory,
      the validation commands in a given mode, writing the `err` file. */
  datatype Environment = Environment(
    makeDirFails: Case -> bool,
    validationFails: (Mode, Case) -> bool,
    errorFileWriteFails: Case -> bool)

  datatype CaseError =
    | MakeDirError
    | ValidationError(mode: Mode)
      /** The validation error, wrapped because its `err` file could not be
          written. */
    | UnrecordedValidationError(mode: Mode)

  datatype Result = Result(c: Case, err: Option<CaseError>, skipped: bool)

  /** For each declared variable, the choices seen in failed cases. */
  type FailedChoices = map<VariableName, set<ChoiceName>>

  /** Some pair of the case is a recorded failed choice. A variable with no
      entry reads as Go's nil map, which holds nothing. */
  predicate SharesFailedChoice(c: Case, failed: FailedChoices) {
    exists k | k in c :: k in failed && c[k] in failed[k]
  }

  /** The worker's pruning test as the source writes it: range over the
      case and stop at the first pair already recorded as failed. `keys` is
      the order the case happens to be ranged over in. */
  method SharesFailedChoiceLoop(c: Case, failed: FailedChoices, keys: seq<VariableName>) returns (shares: bool)
    requires forall k :: k in keys <==> k in c
    ensures shares == SharesFailedChoice(c, failed)
  {
    var i := 0;
    while i < |keys|
      invariant 0 <= i <= |keys|
      invariant forall j | 0 <= j < i :: !(keys[j] in failed && c[keys[j]] in failed[keys[j]])
    {
      var k := keys[i];
      if k in failed && c[k] in failed[k] {
        return true;
      }
      i := i + 1;
    }
    assert !SharesFailedChoice(c, failed) by {
      forall k | k in c
        ensures !(k in failed && c[k] in failed[k])
      {
        var j :| 0 <= j < |keys| && keys[j] == k;
      }
    }
    return false;
  }

  /** The outcome a validated case gets from the outside world. */
  predicate CaseFails(env: Environment, o: Options, c: Case) {
    env.makeDirFails(c) || env.validationFails(ModeOf(o), c)
  }

  /** The worker's handling of one case. */
  function Work(c: Case, failed: FailedChoices, o: Options, env: Environment): (r: Result)
    ensures r.c == c
    ensures r.skipped <==> o.pruneFailedChoices && SharesFailedChoice(c, failed)
    ensures r.skipped ==> r.err == None
    ensures !r.skipped ==> (r.err.Some? <==> CaseFails(env, o, c))
    ensures !r.skipped && env.makeDirFails(c) ==> r.err == Some(MakeDirError)
    ensures !r.skipped && !env.makeDirFails(c) && env.validationFails(ModeOf(o), c) ==>
              r.err == Some(if env.errorFileWriteFails(c) then UnrecordedValidationError(ModeOf(o))
                            else ValidationError(ModeOf(o)))
  {
    if o.pruneFailedChoices && SharesFailedChoice(c, failed) then Result(c, None, true)
    else if env.makeDirFails(c) then Result(c, Some(MakeDirError), false)
    else
      var mode := ModeOf(o);
      if !env.validationFails(mode, c) then Result(c, None, false)
      else if env.errorFileWriteFails(c) then Result(c, Some(UnrecordedValidationError(mode)), false)
      else Result(c, Some(ValidationError(mode)), false)
  }

  /** The collector's state. */
  datatype Summary = Summary(failed: seq<Case>, skipped: seq<Case>, failedVariables: FailedChoices, resultCount: nat)

  /** The failed-choice index of a list of failed cases. */
  function Index(declared: set<VariableName>, failed: seq<Case>): FailedChoices {
    map k | k in declared :: set c | c in failed && k in c :: c[k]
  }

  function Start(declared: set<VariableName>): (s: Summary)
    ensures s.failed == [] && s.skipped == [] && s.resultCount == 0
    ensures s.failedVariables.Keys == declared
    ensures forall k | k in declared :: s.failedVariables[k] == {}
  {
    Summary([], [], Index(declared, []), 0)
  }

  function AddFailedChoices(failed: FailedChoices, c: Case): FailedChoices {
    map k | k in failed :: if k in c then failed[k] + {c[k]} else failed[k]
  }

  /** The collector's handling of one result. A failed case must only name
      declared variables: recording a choice of any other variable writes
      to a nil map, which panics. */
  function Record(s: Summary, r: Result): (s': Summary)
    requires r.err.Some? ==> r.c.Keys <= s.failedVariables.Keys
    ensures s'.failed == s.failed + (if r.err.Some? then [r.c] else [])
    ensures s'.skipped == s.skipped + (if r.skipped then [r.c] else [])
    ensures |s'.skipped| + s'.resultCount == |s.skipped| + s.resultCount + 1
    ensures s'.failedVariables.Keys == s.failedVariables.Keys
    ensures forall k | k in s.failedVariables ::
              s'.failedVariables[k] == s.failedVariables[k] + (if r.err.Some? && k in r.c then {r.c[k]} else {})
    ensures s'.resultCount == s.resultCount + (if r.skipped then 0 else 1)
  {
    var s1 :=
      if r.err.Some? then s.(failed := s.failed + [r.c], failedVariables := AddFailedChoices(s.failedVariables, r.c))
      else s;
    if r.skipped then s1.(skipped := s1.skipped + [r.c]) else s1.(resultCount := s1.resultCount + 1)
  }

  /** The cases of the failed results, in order. */
  function FailedCases(rs: seq<Result>): seq<Case> {
    if rs == [] then []
    else FailedCases(rs[..|rs| - 1]) + (if rs[|rs| - 1].err.Some? then [rs[|rs| - 1].c] else [])
  }

  /** The cases of the skipped results, in order. */
  function SkippedCases(rs: seq<Result>): seq<Case> {
    if rs == [] then []
    else SkippedCases(rs[..|rs| - 1]) + (if rs[|rs| - 1].skipped then [rs[|rs| - 1].c] else [])
  }

  /** Appending a result keeps every earlier prefix and extends the two
      lists by that result alone. */
  lemma AppendResult(rs: seq<Result>, r: Result)
    ensures forall j | 0 <= j <= |rs| :: (rs + [r])[..j] == rs[..j]
    ensures FailedCases(rs + [r]) == FailedCases(rs) + (if r.err.Some? then [r.c] else [])
    ensures SkippedCases(rs + [r]) == SkippedCases(rs) + (if r.skipped then [r.c] else [])
  {
    assert (rs + [r])[..|rs|] == rs;
  }

  /** The two cases make the same choice for some variable. */
  predicate SharePair(c: Case, d: Case) {
    exists k | k in c :: k in d && c[k] == d[k]
  }

  /** Recording one more failed case adds exactly its choices to the
      index. */
  lemma IndexAppend(declared: set<VariableName>, failed: seq<Case>, c: Case)
    requires c.Keys <= declared
    ensures AddFailedChoices(Index(declared, failed), c) == Index(declared, failed + [c])
  {
    var a, b := AddFailedChoices(Index(declared, failed), c), Index(declared, failed + [c]);
    forall k | k in declared
      ensures a[k] == b[k]
    {
      assert forall d | d in failed + [c] :: d in failed || d == c;
    }
  }

  /** A failed case is the case of some failed result. */
  lemma {:induction false} FailedCasesFrom(rs: seq<Result>, d: Case)
    requires d in FailedCases(rs)
    ensures exists j | 0 <= j < |rs| :: rs[j].err.Some? && rs[j].c == d
    decreases |rs|
  {
    var last := rs[|rs| - 1];
    if d in FailedCases(rs[..|rs| - 1]) {
      FailedCasesFrom(rs[..|rs| - 1], d);
      var j :| 0 <= j < |rs| - 1 && rs[..|rs| - 1][j].err.Some? && rs[..|rs| - 1][j].c == d;
      assert rs[j] == rs[..|rs| - 1][j];
    } else {
      assert last.err.Some? && last.c == d;
    }
  }

  /** Only validated, failing cases and only pruned cases land in the two
      lists: with both lists empty, every result was validated and passed. */
  lemma {:induction false} NothingFailedOrSkipped(rs: seq<Result>)
    requires FailedCases(rs) == [] && SkippedCases(rs) == []
    ensures forall j | 0 <= j < |rs| :: !rs[j].skipped && rs[j].err.None?
    decreases |rs|
  {
    if rs != [] {
      var init := rs[..|rs| - 1];
      NothingFailedOrSkipped(init);
      forall j | 0 <= j < |rs| - 1
        ensures !rs[j].skipped && rs[j].err.None?
      {
        assert rs[j] == init[j];
      }
    }
  }

  /** Every result so far is the worker's answer given the failures
      recorded before its case was taken. */
  ghost predicate Causal(declared: set<VariableName>, cases: seq<Case>, o: Options, env: Environment,
                         results: seq<Result>)
    requires |results| <= |cases|
  {
    forall j | 0 <= j < |results| ::
      results[j] == Work(cases[j], Index(declared, FailedCases(results[..j])), o, env)
  }

  lemma CausalStep(declared: set<VariableName>, cases: seq<Case>, o: Options, env: Environment,
                   results: seq<Result>)
    requires |results| < |cases|
    requires Causal(declared, cases, o, env, results)
    ensures var r := Work(cases[|results|], Index(declared, FailedCases(results)), o, env);
            Causal(declared, cases, o, env, results + [r])
  {
    var r := Work(cases[|results|], Index(declared, FailedCases(results)), o, env);
    AppendResult(results, r);
  }

  /** With no failure recorded yet, the run so far has failed and skipped
      nothing exactly when none of its cases fails. */
  lemma AllPassedStep(declared: set<VariableName>, c: Case, failed: seq<Case>, skipped: seq<Case>,
                      o: Options, env: Environment)
    requires failed == [] && skipped == []
    ensures var r := Work(c, Index(declared, failed), o, env);
            !r.skipped && (r.err.None? <==> !CaseFails(env, o, c))
  {
    assert !SharesFailedChoice(c, Index(declared, failed));
  }

  /** What the collector's state says after the first `|results|` cases. */
  ghost predicate Collected(declared: set<VariableName>, cases: seq<Case>, o: Options, env: Environment,
                            s: Summary, results: seq<Result>)
    requires |results| <= |cases|
  {
    && Causal(declared, cases, o, env, results)
    && s.failed == FailedCases(results) && s.skipped == SkippedCases(results)
    && s.failedVariables == Index(declared, s.failed)
    && |s.skipped| + s.resultCount == |results|
    && |s.failed| <= s.resultCount
    && (!o.pruneFailedChoices ==> s.skipped == [])
    && (s.failed == [] && s.skipped == [] <==> forall j | 0 <= j < |results| :: !CaseFails(env, o, cases[j]))
  }

  /** Working on the next case and recording its result keeps the
      collector's state in step. */
  lemma CollectStep(declared: set<VariableName>, cases: seq<Case>, o: Options, env: Environment,
                    s: Summary, results: seq<Result>)
    requires |results| < |cases| && cases[|results|].Keys <= declared
    requires Collected(declared, cases, o, env, s, results)
    ensures var r := Work(cases[|results|], s.failedVariables, o, env);
            s.failedVariables.Keys == declared &&
            Collected(declared, cases, o, env, Record(s, r), results + [r])
  {
    var c := cases[|results|];
    var r := Work(c, s.failedVariables, o, env);
    CausalStep(declared, cases, o, env, results);
    AppendResult(results, r);
    if s.failed == [] && s.skipped == [] {
      AllPassedStep(declared, c, s.failed, s.skipped, o, env);
    }
    if r.err.Some? {
      IndexAppend(declared, s.failed, c);
    }
  }

  /** The sequential run of the `test` command over `cases`. Returns the
      collector's final state and the result of every case, in order. */
  method Run(declared: set<VariableName>, cases: seq<Case>, o: Options, env: Environment)
    returns (s: Summary, results: seq<Result>)
    requires forall c | c in cases :: c.Keys <= declared
    ensures |results| == |cases|
    ensures forall i | 0 <= i < |cases| ::
              results[i] == Work(cases[i], Index(declared, FailedCases(results[..i])), o, env)
    ensures s.failed == FailedCases(results) && s.skipped == SkippedCases(results)
    ensures s.failedVariables == Index(declared, s.failed)
    ensures |s.skipped| + s.resultCount == |cases|
    ensures |s.failed| <= s.resultCount
    ensures !o.pruneFailedChoices ==> s.skipped == []
    ensures s.failed == [] && s.skipped == [] <==> forall c | c in cases :: !CaseFails(env, o, c)
  {
    s := Start(declared);
    results := [];
    var i := 0;
    while i < |cases|
      invariant 0 <= i <= |cases|
      invariant |results| == i
      invariant Collected(declared, cases, o, env, s, results)
    {
      var r := Work(cases[i], s.failedVariables, o, env);
      CollectStep(declared, cases, o, env, s, results);
      s := Record(s, r);
      results := results + [r];
      i := i + 1;
    }
    assert forall j | 0 <= j < |cases| :: cases[j] in cases;
  }

  /** Pruning is justified by recorded failures only: a skipped case shares
      a choice with a case that failed before it was taken. */
  lemma PruneJustified(declared: set<VariableName>, cases: seq<Case>, o: Options, env: Environment,
                       results: seq<Result>, i: nat)
    requires |results| == |cases| && i < |cases|
    requires results[i] == Work(cases[i], Index(declared, FailedCases(results[..i])), o, env)
    requires results[i].skipped
    ensures o.pruneFailedChoices
    ensures exists j | 0 <= j < i :: results[j].err.Some? && SharePair(cases[i], results[j].c)
  {
    var failed := FailedCases(results[..i]);
    var c := cases[i];
    var k :| k in c && k in Index(declared, failed) && c[k] in Index(declared, failed)[k];
    var d :| d in failed && k in d && d[k] == c[k];
    FailedCasesFrom(results[..i], d);
    var j :| 0 <= j < i && results[..i][j].err.Some? && results[..i][j].c == d;
    assert results[j] == results[..i][j];
  }
}
